=== FILE: README.md ===
# settlers-installer: a Dafny model of the installer's decision logic

settlers-installer is a desktop launcher for JSettlers. It lists the game
versions published on GitHub, as releases and as CI workflow runs with
artifacts. It installs a chosen version into `~/.jsettlers/managed/game/<id>`
and runs one of its jars. It also keeps a local inventory of installed
versions, checks for updates and throttles itself against the GitHub rate
limit.

This project models the logic between the GitHub client and the file
system. The outside world is plain data:
- remote objects are the `Catalog.Entry` datatype;
- directory listings are sequences;
- timestamps are integer milliseconds;
- quota readings are an oracle consumed one per `getRemaining()` call;
- extraction attempts are an oracle of transient failures.

Modules, in dependency order:

- `Wrappers`: `Option`, `Result` and the Java exceptions the code can end with.
- `Text`: `String.valueOf(long)`, ASCII lower-casing, `split`,
  `StringTokenizer` and `trim`.
- `Paths`: paths as component sequences, `Path.normalize` and
  `Path.startsWith`.
- `Ordering`: a stable descending sort with its characterisation.
  `Collections.sort` is stable, and any stable sort gives the same list.
- `Catalog`: releases, workflow runs and the `sort*ByDate` functions.
- `Layout`: the managed folders and the per-game directory.
- `Extraction`: the zip-slip guard and the entry loop of `unzip`.
- `Inventory`: installed-version records and `getInstalledGames`.
- `Install`: the retrying `installGeneric`, `installRelease`,
  `installWorkflowRun` and `installGame`.
- `AvailableGames`: the gated catalog scan and its one-slot cache.
- `Updates`: `installLatest` and the update check of `haveGameFiles`.
- `RateLimit`: the throttle of the rate-limit checker.
- `App`: the Play, Tools and Map Creator handlers, log truncation and
  `haveDataFiles`.
- `Folders`: `isInstallCD`, `isGameFolder`, `cleanTemp` and `getLatestLogDir`.
- `Probes`: the `/proc/mounts` scan and the `xwininfo` parser.

An exception is modelled as a `Failure` value whenever the code does not
catch it. The model reproduces where the Java code dereferences `null`, such
as a missing date in a comparator or a `null` directory listing.

## Model

| member | source | states |
|---|---|---|
| Text.IntToStringInjective | app/src/main/java/settlers/installer/Util.java:366 | `String.valueOf` of two ids is equal exactly when the ids are equal, since the decimal text reads back as the number |
| Text.SplitJoin | app/src/main/java/settlers/installer/Util.java:1048 | splitting a string at one separator and joining the fields with it gives the string back |
| Text.JavaSplitFields | app/src/main/java/settlers/installer/Util.java:1048 | `split` returns a string without the separator whole; otherwise it returns the separator-split fields up to the last non-empty one, and only empty fields are dropped |
| Text.JavaSplitPair | app/src/main/java/settlers/installer/Util.java:1048-1049 | a line `name:value` with one separator and a non-empty value splits into exactly those two parts |
| Text.Trim | app/src/main/java/settlers/installer/Util.java:1047 | the trimmed string is a contiguous slice of the input, everything cut off is a character up to U+0020, and the ends kept are not |
| Paths.Normalize | app/src/main/java/settlers/installer/Util.java:272 | a normalised path has no empty, `.` or `..` component |
| Paths.NormalizeIdempotent | app/src/main/java/settlers/installer/Util.java:272 | normalising twice is normalising once, and a normal path is left as it is |
| Paths.ResolveAppend | app/src/main/java/settlers/installer/Util.java:272 | resolving a concatenation is resolving its parts one after the other |
| Paths.ResolveWithoutParentKeepsBase | app/src/main/java/settlers/installer/Util.java:272 | components without `..` never leave the base they are resolved against |
| Paths.NormalizeChild | app/src/main/java/settlers/installer/Util.java:271-272 | `new File(target, name)` normalised is `name`'s `/`-separated components resolved against the normal `target` |
| Ordering.SortDesc | app/src/main/java/settlers/installer/Util.java:103-112 | the result is a permutation, non-increasing by key, and keeps the input order among equal keys |
| Ordering.StableSortUnique | app/src/main/java/settlers/installer/Util.java:104 | two sorted lists with the same per-key order are identical, so every stable sort of a list gives one and the same result |
| Ordering.HeadIsMax | app/src/main/java/settlers/installer/Util.java:104 | the first element of a sorted list carries the greatest key |
| Catalog.SortGHObjectByDate | app/src/main/java/settlers/installer/Util.java:187-199 | it throws a null-pointer exception exactly when a list of two or more holds an entry without a date (publish date for releases, update date otherwise); otherwise the result is a stable sort, newest first |
| Catalog.SortReleaseByDate | app/src/main/java/settlers/installer/Util.java:102-114 | for dated releases, a stable sort by publish date, newest first |
| Catalog.ReleaseSortsAgree | app/src/main/java/settlers/installer/Util.java:167-179 | `getDateFor` dates a release by its publish date, so on dated releases `sortGHObjectByDate` does not throw and returns the list `sortReleaseByDate` returns |
| Catalog.SortWorkflowByDate | app/src/main/java/settlers/installer/Util.java:207-224 | for dated runs, a stable sort by creation date, newest first |
| Catalog.SortArtifactsByDate | app/src/main/java/settlers/installer/Util.java:142-159 | for dated artifacts, a stable sort by update date, newest first |
| Layout.GameDirIdentifiesId | app/src/main/java/settlers/installer/Util.java:1020-1023 | the game directory derived for install, removal, launch and `isInstalled` is the same for one id and different for different ids |
| Layout.GameDirPlacement | app/src/main/java/settlers/installer/Util.java:514-559 | a game directory is a normal path one level below `home/.jsettlers/managed/game`, outside the temp, data and var folders |
| Layout.CreatingGameDirInstallsThatId | app/src/main/java/settlers/installer/Util.java:1020-1023 | creating an entry's game directory makes `isInstalled` true for exactly the entries with that id and changes no other answer |
| Layout.LaunchJarInsideGameDir | app/src/main/java/settlers/installer/Util.java:569-572 | the jar launched for an entry extends that entry's game directory; when the home folder is normal and the jar name has no empty, `.` or `..` component, normalising changes nothing, so the file lies strictly inside the game directory |
| Layout.ParentJarLeavesGameDir | app/src/main/java/settlers/installer/Util.java:569-572 | without that restriction the jar `..` resolves to the games folder, outside the game directory |
| Layout.RemovingGameDirUninstallsThatId | app/src/main/java/settlers/installer/Util.java:1020-1023 | removing an entry's game directory makes `isInstalled` false for exactly the entries with that id and changes no other answer |
| Extraction.ExtractEntries | app/src/main/java/settlers/installer/Util.java:268-287 | the containment guard rejects an archive exactly when some entry fails it, and the first such entry stops the loop with "Bad ZIP entry <name>" after exactly the entries before it; every written destination starts with the target (a missing parent folder, the other way `unzip` fails, is under Left out) |
| Extraction.EntriesWithoutParentAccepted | app/src/main/java/settlers/installer/Util.java:271-275 | an entry name without a `..` component always passes the guard |
| Extraction.ParentEntryRejected | app/src/main/java/settlers/installer/Util.java:305-309 | `../x` resolves into the target's parent and fails the guard, unless `x` is the target's own name |
| Extraction.OutsideEntryRejectedFromGameDir | app/src/main/java/settlers/installer/Util.java:271-275 | `../outside.txt` never passes the guard of a game directory |
| Inventory.SortGamesByDate | app/src/main/java/settlers/installer/Util.java:122-134 | for dated records, a stable sort by publish date, newest first |
| Inventory.ParsedAppend | app/src/main/java/settlers/installer/Util.java:237-245 | the records of a listing are those of its parts in order; a directory contributes its record when it parsed and nothing otherwise, so order and multiplicity follow the listing |
| Inventory.Parsed | app/src/main/java/settlers/installer/Util.java:237-245 | exactly the records whose metadata parsed are collected, and failures are skipped |
| Inventory.GetInstalledGames | app/src/main/java/settlers/installer/Util.java:232-250 | the result holds a record exactly when the games folder is a directory and some metadata parsed to it, stably sorted newest first; nothing when the folder is no directory |
| Inventory.FirstInstalledIsNewest | app/src/main/java/settlers/installer/Util.java:249 | the first installed record has the newest publish date of all parsed records |
| Install.InstallGeneric | app/src/main/java/settlers/installer/Util.java:323-351 | one download, then at most six unzip calls that stop at the first success; it fails exactly when the download fails, or when no attempt among six both avoids a transient failure and passes the guard; a ten-second wait follows every failed attempt |
| Install.InstallRelease | app/src/main/java/settlers/installer/Util.java:360-390 | the first asset named `JSettlers.zip` is installed into the release's game directory; without one, nothing happens; metadata is written exactly when extraction succeeded, with the asset URL, install time, name, publish date and class name; a missing publish date throws after the record is written |
| Install.InstallWorkflowRun | app/src/main/java/settlers/installer/Util.java:398-441 | the first artifact named `Release` is extracted to a scratch folder, and the nested `JSettlers.zip` into the run's game directory, without retry; metadata names the run "name branch number" and dates it by the artifact; a missing artifact date throws after the record is written |
| Install.InstallGame | app/src/main/java/settlers/installer/Util.java:450-459 | a release or run goes to its installer and only ever targets its own game directory; any other object throws "Unknown game type" |
| AvailableGames.ScanRuns | app/src/main/java/settlers/installer/Util.java:986-996 | every artifact listing follows a passing quota reading; only runs with artifacts are added; the countdown falls by one per added run and never below zero; the calls are appended to the trace |
| AvailableGames.ScanWorkflows | app/src/main/java/settlers/installer/Util.java:984-1003 | the same, for the loop over workflows, whose run listing is gated too |
| AvailableGames.FetchCatalog | app/src/main/java/settlers/installer/Util.java:967-1005 | every remote call follows a reading above 10; the scan adds at most 30 runs, all with artifacts, and none when only releases are wanted; it throws exactly when the repository handle was skipped but runs are listed, after two readings and before any listing; the runs it returns are exactly those with artifacts among the runs whose artifact listing is in its trace (so each was listed right after a passing reading), in the order of the repository's runs, workflow by workflow |
| AvailableGames.ScanRunsAllPass | app/src/main/java/settlers/installer/Util.java:986-996 | with every reading passing, the run loop keeps the qualifying runs in order until the countdown is spent |
| AvailableGames.ScanWorkflowsAllPass | app/src/main/java/settlers/installer/Util.java:984-1003 | with every reading passing, the workflow loop keeps the first qualifying runs across workflows, up to the countdown |
| AvailableGames.FetchCatalogAllPass | app/src/main/java/settlers/installer/Util.java:967-1005 | with every reading passing, the scan yields all releases and the first 30 runs with artifacts, workflow by workflow |
| AvailableGames.RunStepKeeps | app/src/main/java/settlers/installer/Util.java:986-990 | one step of the run loop adds run `j` exactly when its artifact listing was made, after a passing reading, and returned at least one artifact |
| AvailableGames.ScanRunsFetched | app/src/main/java/settlers/installer/Util.java:986-996 | the runs the run loop adds are exactly those with artifacts among the runs whose artifacts its own calls list, in call order, and those runs are runs of the workflow taken in order |
| AvailableGames.ScanWorkflowsFetched | app/src/main/java/settlers/installer/Util.java:984-1003 | the same for the workflow loop, with the runs taken in order across the workflows from the current one on |
| AvailableGames.FullScan | app/src/main/java/settlers/installer/Util.java:978-1003 | when the third reading passes, the workflow loop runs; the runs found are exactly those with artifacts among the runs whose artifact listing is in the trace, and they are an in-order subsequence of the repository's runs with artifacts, workflow by workflow |
| AvailableGames.QualifyingSubsequence | app/src/main/java/settlers/installer/Util.java:987-990 | keeping only the runs with artifacts preserves being an in-order subsequence |
| AvailableGames.GetAvailableGames | app/src/main/java/settlers/installer/Util.java:961-1012 | a fresh slot is returned unchanged with no call; an empty or expired slot is refreshed with the stably sorted scan and expiry now + 60 minutes; a throwing scan or sort leaves the slot unchanged |
| AvailableGames.CacheTtl | app/src/main/java/settlers/installer/Util.java:964 | after a refresh at t, every call up to t + 60 minutes returns the same list with no call, whatever its arguments, and any later call refreshes |
| AvailableGames.ReleasesOnlyListServedToFullScan | app/src/main/java/settlers/installer/Util.java:961-1012 | `releasesOnly` is not part of the cache key: a releases-only list is served to a later call asking for runs |
| Updates.InstallLatest | app/src/main/java/settlers/installer/Util.java:790-802 | the first listed release is installed exactly when nothing is installed or the newest installed publish date is strictly earlier; an empty release list and missing dates throw |
| Updates.InstallLatestSettles | app/src/main/java/settlers/installer/Util.java:796 | once a version with the first release's publish date is installed, `installLatest` installs nothing more |
| Updates.HaveGameFiles | app/src/main/java/settlers/installer/App.java:897-955 | online games are shown when connected and there are some, the installed ones otherwise; an update is reported exactly when the install time of the first (newest-published) installed record is strictly before the first entry's update date (else its creation date); a missing date counts as up to date; an I/O failure is swallowed and any other exception escapes |
| Updates.UpdateRulesDiffer | app/src/main/java/settlers/installer/App.java:919-945 | the two update rules disagree on a version installed between a release's publication and its last edit |
| Updates.InstalledFromNewestRelease | app/src/main/java/settlers/installer/App.java:919-945 | for a version published with the newest release, `installLatest` installs nothing, while the update check reports an update exactly when the release's update (else creation) date is after the install time |
| Updates.OlderVersionInstalledLater | app/src/main/java/settlers/installer/App.java:919-945 | for a version published before the newest release, `installLatest` installs that release, while the update check reports it as the latest whenever it was installed no earlier than the release's update (else creation) date |
| RateLimit.CheckRateLimit | app/src/main/java/settlers/installer/App.java:101-117 | it bails out, without sleeping, exactly when fewer than 10 requests remain; it sleeps between 10 and 900 ms exactly when 10 to 99 remain; with 100 or more it does nothing |
| RateLimit.ThrottleStrictlyDecreasing | app/src/main/java/settlers/installer/App.java:111-114 | in the throttled band, each request fewer left means exactly 10 ms more sleep |
| RateLimit.ThrottleMonotone | app/src/main/java/settlers/installer/App.java:104-116 | once the checker is not bailing out, more remaining quota never means a longer sleep |
| App.PlanLaunch | app/src/main/java/settlers/installer/App.java:576-624 | no selection is refused with "Please select a game version first."; a remote game that is not installed is installed only with more than one request left, and is otherwise refused with the rate-limit message; the jar run lies in the entry's game directory, a path that normalising leaves unchanged when the home folder is normal, or below a local version's install path |
| App.JarNameIsPlain | app/src/main/java/settlers/installer/App.java:621-623 | each launched jar is `JSettlers/<file>`, two plain components, so the launched path needs no normalising |
| App.SecondLaunchNeedsNoInstall | app/src/main/java/settlers/installer/App.java:602-610 | once the game directory exists, a launch neither installs nor consults the quota, and runs the same jar |
| App.TruncateLog | app/src/main/java/settlers/installer/App.java:510-513 | the attached log is the suffix of the original of length min(length, 65000) |
| App.TruncateLogStable | app/src/main/java/settlers/installer/App.java:510-513 | truncating twice changes nothing, and text before the last 65000 characters does not matter |
| App.HaveDataFiles | app/src/main/java/settlers/installer/App.java:962-976 | true exactly when the data folder is a directory with at least two entries; a failed listing of a directory throws |
| App.HaveDataFilesMonotone | app/src/main/java/settlers/installer/App.java:971 | more files never make a valid data folder invalid |
| Folders.HasRequiredNames | app/src/main/java/settlers/installer/Util.java:815-825 | removing every lower-cased entry name from the distinct required names empties the list exactly when each required name is listed |
| Folders.IsInstallCD | app/src/main/java/settlers/installer/Util.java:809-826 | true exactly for a listed directory containing `autorun.inf`, `s3` and `s3.dat` in any letter case |
| Folders.IsGameFolder | app/src/main/java/settlers/installer/Util.java:833-851 | true exactly for a listed directory containing `gfx`, `manual`, `map` and `snd` in any letter case |
| Folders.CleanTemp | app/src/main/java/settlers/installer/Util.java:1178-1193 | exactly the temp entries last modified more than seven days before now are deleted; nothing when temp is no directory |
| Folders.StaleFilesAppend | app/src/main/java/settlers/installer/Util.java:1182-1188 | the deleted files keep listing order: the filter of a concatenation is the concatenation of the filters |
| Folders.StaleFilesSingle | app/src/main/java/settlers/installer/Util.java:1183-1184 | a single file is deleted exactly when it was last modified more than seven days before now |
| Folders.CleanTempMonotone | app/src/main/java/settlers/installer/Util.java:1183-1184 | a later clean deletes everything an earlier one would, and a file touched within the week survives |
| Folders.LatestLogDir | app/src/main/java/settlers/installer/Util.java:1111-1130 | the first log directory with the greatest modification time, `None` for an empty folder, a null-pointer exception for a missing listing |
| Probes.CdMountPointLinux | app/src/main/java/settlers/installer/Util.java:713-735 | the second whitespace field of the first line mentioning `iso9660` in any case; `None` when the file is missing, no line matches, or that line has fewer than two fields |
| Probes.Collect | app/src/main/java/settlers/installer/Util.java:1052 | the collected properties define a name exactly when some parsed line carries it |
| Probes.PropertiesDefined | app/src/main/java/settlers/installer/Util.java:1046-1054 | a name is defined exactly when some line, trimmed and split at `:`, has two parts and that name |
| Probes.WindowPropertiesDefined | app/src/main/java/settlers/installer/Util.java:1040-1057 | a window property is defined exactly when some non-empty line of the `xwininfo` output parses to that name |
| Probes.LastLineWins | app/src/main/java/settlers/installer/Util.java:1052 | the stored value of a name is the one from the last line defining it |

## Left out

- The Swing window, dialogs, the bug-report window, button enabling and the worker threads are presentation and threading.
- Some steps of the launch handlers are not modelled: downloading music (before the install decision, its failures only logged), showing the bug button, and running the jar in a new JVM (`execJarFile`) after it. A refusal is shown in a dialog; a thrown message is prefixed with "Something went wrong:".
- AvailableGames.FetchCatalog / AvailableGames.GetAvailableGames: the remote calls (`getRepository` and the `listReleases`, `listWorkflows`, `listRuns` and `listArtifacts` listings) never fail in the model, so the only exception of the scan is the null repository handle. In the code each can throw an `IOException`, which leaves the cache unchanged and which `haveGameFiles` treats as an empty list (its `online` parameter still covers that case).
- The GitHub client is not modelled: pagination, authentication, the abuse and rate-limit handlers, and creating issues. Remote objects are given as data.
- The meaning of `checkRateLimit`'s `true` inside the client library is not modelled. The library is not part of this model.
- ZIP decoding (`ZipInputStream`, `WinZipInputStream`), byte copying, `mkdirs` and `setLastModifiedTime` are not modelled. An archive is its list of entries. A failed extraction may already have created the game directory, which the model does not track.
- Downloads are a success flag; the contents come from the `Source` oracle.
- Install.InstallGeneric: the exception messages are shortened. The real ones carry the URL or file names.
- Install.InstallGeneric: "passes the guard" is the only extraction failure modelled. A plain archive whose file entry lacks its parent folder fails every attempt in the code (see Extraction.ExtractEntries below).
- Install.InstallWorkflowRun: a download failure is reported as `IO("Could not download")`. The library's real message is not known here. The same report stands for the `IOException` thrown when the scratch file and folder cannot be created (Util.java:405-406), as on a fresh home where the managed temp folder does not exist yet. A scratch folder without `JSettlers.zip` is reported as `IO("JSettlers.zip not found")`, while the code throws the `FileNotFoundException` of opening the missing file, whose message names its path.
- JSON (de)serialisation of the metadata with Genson is not modelled. Reading a record is an oracle that yields the record or a parse failure.
- Writing the record is reported, not performed.
- Inventory.GetInstalledGames: a `null` listing of an existing games folder is not modelled. The folder's listing is assumed readable.
- Catalog.SortReleaseByDate, Catalog.SortWorkflowByDate, Catalog.SortArtifactsByDate and Inventory.SortGamesByDate require every date to be present in lists of two or more. Their comparators return 1 whenever the second date is missing, which is not a consistent order, so the library sort's result is unspecified.
- `getDateFor` swallows an `IOException` from `getUpdatedAt`. In the model, dates are data.
- AvailableGames.GetAvailableGames uses one clock reading `now` for both the expiry test and the new expiry. The code reads the clock twice.
- The static cache is shared between threads without synchronisation. It is modelled sequentially.
- `Thread.sleep` is recorded as delay values (`delays`, `sleepMs`); interrupted sleeps are not modelled.
- Extraction.ExtractEntries: an entry that passes the guard is always written in the model. In `unzip` (Util.java:279-280) a file entry is written with `Files.copy`, which does not create the parent folder; only `unzipSelfExtractingZip` (Util.java:314) creates it first. So a plain archive holding `JSettlers/JSettlers.jar` without an earlier folder entry `JSettlers/` throws `NoSuchFileException` in the code (unless that folder is already on disk), while the model extracts it. Through `installGeneric` all six attempts then fail the same way. Folders already on disk are not part of the model, so the missing-parent failure is not modelled.
- Paths.Components / Extraction.ExtractEntries: Unix path syntax only (no `\` separator, drive letters or UNC roots). On Windows, an entry such as `..\x` is split at `\` and rejected by the guard, while the model reads it as one ordinary component.
- App.TruncateLog: lengths are counted in characters, not UTF-16 code units. Java's `length()` and `substring` count code units, so for a log with characters outside the Basic Multilingual Plane the kept suffix differs, and Java may split a surrogate pair at the cut.
- Lower-casing is ASCII only. Java's locale-dependent `toLowerCase` is not modelled.
- Probes.CdMountPointLinux splits lines at `\n` and `\r` only. Java's `Scanner` also ends lines at U+2028, U+2029 and U+0085.
- Process execution and external tools are left out: hostname, the Ant-based CD install, the music conversion pipeline and opening a browser.
- Screen geometry and capture are left out. They use floating point and AWT.
- `deleteDir`, `copyGameData` and `removeRelease`'s deletion are file system plumbing. The directory `removeRelease` targets is the `Layout.GameDir` of the release's id.

=== FILE: app.dfy ===
/** Pure rules inside `App.java`'s handlers: what Play, Tools and Map
  Creator do with the selected game, the bug-report log truncation and
  the data-folder sanity check.
 */
module App {
  import opened Wrappers
  import opened Paths
  import opened Catalog
  import opened Layout
  import opened Inventory

  /** The game list selection. */
  datatype Selection = NoSelection | RemoteGame(entry: Entry) | LocalGame(version: GameVersion)

  /** The three launch buttons. */
  datatype Tool = Play | Tools | MapCreator

  /** The jar file each button runs. */
  function JarFile(t: Tool): string {
    match t
    case Play => "JSettlers.jar"
    case Tools => "JSettlersTools.jar"
    case MapCreator => "MapCreator.jar"
  }

  /** The jar each button runs, relative to the game's directory. */
  function JarName(t: Tool): string {
    "JSettlers/" + JarFile(t)
  }

  /** A jar file name is a single plain component. */
  lemma JarFileIsPlain(t: Tool)
    ensures IsName(JarFile(t))
    ensures forall k :: 0 <= k < |JarFile(t)| ==> JarFile(t)[k] != '/'
  {
  }

  /** Each jar is a file one folder below the game directory, and its name
      has no empty, `.` or `..` component. */
  lemma JarNameIsPlain(t: Tool)
    ensures Components(JarName(t)) == ["JSettlers", JarFile(t)]
    ensures IsNormal(Components(JarName(t)))
  {
    var file := JarFile(t);
    JarFileIsPlain(t);
    assert JarName(t) == "JSettlers" + "/" + file;
    ComponentsAfterFirstSlash("JSettlers", file);
    assert Components(file) == [file];
  }

  const SelectFirst: string := "Please select a game version first."
  const QuotaExhausted: string := "Cannot install. GitHub Rate limit exceeded"

  /** What a launch button decides before anything is installed or run. */
  datatype LaunchPlan =
    | Refused(message: string)              // a dialog shows `message`; nothing is installed or run
    | Launch(install: bool, jar: Path)      // install first when asked, then run `jar`

  /** The UI installs a missing game only with more than one request left. */
  predicate AllowsInstall(remaining: int) {
    remaining > 1
  }

  /** The handlers of Play, Tools and Map Creator. `installed` is the set of
      existing directories (for `isInstalled`), `remaining` the quota the
      handler reads, which it only consults for a remote game that is not
      installed. */
  function PlanLaunch(home: Path, tool: Tool, selection: Selection, installed: set<Path>, remaining: int)
    : (p: LaunchPlan)
    ensures selection.NoSelection? <==> p == Refused(SelectFirst)
    ensures p == Refused(QuotaExhausted) <==>
      selection.RemoteGame? && !IsInstalled(installed, home, selection.entry) && !AllowsInstall(remaining)
    ensures p.Launch? && p.install <==>
      selection.RemoteGame? && !IsInstalled(installed, home, selection.entry) && AllowsInstall(remaining)
    ensures p.Launch? && selection.RemoteGame? ==>
      StartsWith(p.jar, GameDir(home, selection.entry.Id())) && p.jar == LaunchJar(home, selection.entry, JarName(tool))
    ensures p.Launch? && selection.RemoteGame? && IsNormal(home) ==> Normalize(p.jar) == p.jar
    ensures p.Launch? && selection.LocalGame? ==>
      !p.install && p.jar == Child(selection.version.installPath, JarName(tool))
  {
    match selection
    case NoSelection => Refused(SelectFirst)
    case RemoteGame(e) =>
      JarNameIsPlain(tool);
      LaunchJarInsideGameDir(home, e, JarName(tool));
      if IsInstalled(installed, home, e) then Launch(false, LaunchJar(home, e, JarName(tool)))
      else if AllowsInstall(remaining) then Launch(true, LaunchJar(home, e, JarName(tool)))
      else Refused(QuotaExhausted)
    case LocalGame(v) => Launch(false, Child(v.installPath, JarName(tool)))
  }

  /** Once a remote game's directory exists, launching it again neither
      installs nor looks at the quota, and runs the same jar. */
  lemma SecondLaunchNeedsNoInstall(home: Path, tool: Tool, e: Entry, installed: set<Path>, r1: int, r2: int)
    requires PlanLaunch(home, tool, RemoteGame(e), installed, r1).Launch?
    ensures PlanLaunch(home, tool, RemoteGame(e), installed + {GameDir(home, e.Id())}, r2)
         == Launch(false, PlanLaunch(home, tool, RemoteGame(e), installed, r1).jar)
  {
  }

  const MaxLogChars: nat := 65000

  /** The log attached to a bug report: its last 65000 characters. */
  function TruncateLog(log: string): (r: string)
    ensures |r| == if |log| > MaxLogChars then MaxLogChars else |log|
    ensures r == log[|log| - |r|..]
  {
    if |log| > MaxLogChars then log[|log| - MaxLogChars..] else log
  }

  /** Truncating twice changes nothing, and whatever precedes the last
      65000 characters does not matter. */
  lemma TruncateLogStable(prefix: string, log: string)
    ensures TruncateLog(TruncateLog(log)) == TruncateLog(log)
    ensures |log| >= MaxLogChars ==> TruncateLog(prefix + log) == TruncateLog(log)
  {
    if |log| >= MaxLogChars {
      assert (prefix + log)[|prefix + log| - MaxLogChars..] == log[|log| - MaxLogChars..];
    }
  }

  /** `haveDataFiles`: the data folder is a directory with at least two
      entries. `listing` is `listFiles()`, `None` when the listing fails,
      which the method dereferences without a check. */
  function HaveDataFiles(isDirectory: bool, listing: Option<seq<string>>): (r: Result<bool, Exception>)
    ensures r.Failure? <==> isDirectory && listing.None?
    ensures r.Failure? ==> r.error == NullPointer
    ensures r == Success(true) <==> isDirectory && listing.Some? && |listing.value| >= 2
  {
    if !isDirectory then Success(false)
    else if listing.None? then Failure(NullPointer)
    else Success(|listing.value| >= 2)
  }

  /** More files never make a valid data folder invalid. */
  lemma HaveDataFilesMonotone(listing: seq<string>, extra: seq<string>)
    requires HaveDataFiles(true, Some(listing)) == Success(true)
    ensures HaveDataFiles(true, Some(listing + extra)) == Success(true)
  {
  }
}

=== FILE: availablegames.dfy ===
/** The remote catalog (`Util.getAvailableGames`): a scan of the
  repository's releases and, unless only releases are wanted, of the
  workflow runs that produced artifacts, every remote call gated by a
  fresh quota reading; and the one-slot cache in front of it.

  The GitHub client is plain data (`Repo`). Quota readings are an oracle
  `quota: nat -> int`: the n-th `getRemaining()` call of a scan returns
  `quota(n)`. The scan records the calls it makes (`Call`).
 */
module AvailableGames {
  import opened Wrappers
  import opened Ordering
  import opened Catalog

  /** `GITHUB_MIN_LIMIT4BROWSING`: a remote call is made only with more
      requests than this left. */
  const Floor: int := 10
  /** At most this many workflow runs are listed. */
  const RunLimit: int := 30
  /** `availableGamesCacheTTL`: 60 minutes. */
  const TtlMs: int := 3600000

  datatype Workflow = Workflow(runs: seq<WorkflowRun>)

  /** The repository as the scan sees it. */
  datatype Repo = Repo(releases: seq<Entry>, workflows: seq<Workflow>)

  /** One call the scan makes: a quota reading, or a remote listing. */
  datatype Call =
    | Reading(value: int)
    | FetchReleases
    | FetchWorkflows
    | FetchRuns(workflow: nat)
    | FetchArtifacts(workflow: nat, run: nat)

  /** Every remote listing directly follows a reading above the floor. */
  predicate Gated(trace: seq<Call>) {
    forall i :: 0 <= i < |trace| && !trace[i].Reading? ==>
      i > 0 && trace[i - 1].Reading? && trace[i - 1].value > Floor
  }

  /** The progress of the run scan: readings used, runs found, the
      countdown `limit` and the calls made. */
  datatype Scan = Scan(used: nat, found: seq<WorkflowRun>, limit: int, trace: seq<Call>)

  predicate WithArtifacts(runs: seq<WorkflowRun>) {
    forall i :: 0 <= i < |runs| ==> |runs[i].artifacts| > 0
  }

  /** Takes the next reading without calling anything. */
  function Peek(quota: nat -> int, s: Scan): (r: Scan)
    ensures Gated(s.trace) ==> Gated(r.trace)
    ensures r.used == s.used + 1 && r.found == s.found && r.limit == s.limit
    ensures r.trace == s.trace + [Reading(quota(s.used))]
  {
    var t := s.trace + [Reading(quota(s.used))];
    assert forall i :: 0 <= i < |s.trace| ==> t[i] == s.trace[i];
    s.(used := s.used + 1, trace := t)
  }

  /** Takes the next reading and, when it passes, records `fetch`. */
  function Gate(quota: nat -> int, s: Scan, fetch: Call): (r: Scan)
    requires !fetch.Reading?
    ensures Gated(s.trace) ==> Gated(r.trace)
    ensures r.used == s.used + 1 && r.found == s.found && r.limit == s.limit
    ensures r.trace == s.trace + [Reading(quota(s.used))] + (if quota(s.used) > Floor then [fetch] else [])
  {
    var p := Peek(quota, s);
    if quota(s.used) > Floor then
      var t := p.trace + [fetch];
      assert forall i :: 0 <= i < |p.trace| ==> t[i] == p.trace[i];
      p.(trace := t)
    else p
  }

  /** The run one passing step of the run loop adds: the run itself when
      it has artifacts. */
  function Added(run: WorkflowRun): seq<WorkflowRun> {
    if |run.artifacts| > 0 then [run] else []
  }

  /** Records the run a passing step adds and counts it down. */
  function Advance(s: Scan, run: WorkflowRun): (r: Scan)
    ensures r.found == s.found + Added(run) && r.limit == s.limit - |Added(run)|
    ensures r.used == s.used && r.trace == s.trace
  {
    s.(found := s.found + Added(run), limit := s.limit - |Added(run)|)
  }

  /** The inner loop over the runs of workflow `w`, from run `j` on. */
  function ScanRuns(quota: nat -> int, w: nat, runs: seq<WorkflowRun>, j: nat, s: Scan): (r: Scan)
    requires j <= |runs|
    ensures Gated(s.trace) ==> Gated(r.trace)
    ensures WithArtifacts(s.found) ==> WithArtifacts(r.found)
    ensures |r.found| >= |s.found| && r.found[..|s.found|] == s.found
    ensures r.limit + |r.found| == s.limit + |s.found|
    ensures s.limit > 0 ==> r.limit >= 0
    ensures |r.trace| >= |s.trace| && r.trace[..|s.trace|] == s.trace
    decreases |runs| - j
  {
    if j == |runs| then s
    else
      var g := Gate(quota, s, FetchArtifacts(w, j));
      var s2 := if quota(s.used) > Floor then Advance(g, runs[j]) else g;
      assert s2.found[..|s.found|] == s.found;
      assert s2.trace[..|s.trace|] == s.trace;
      if s2.limit <= 0 then s2
      else
        var r := ScanRuns(quota, w, runs, j + 1, s2);
        assert r.found[..|s.found|] == r.found[..|s2.found|][..|s.found|];
        ExtendsChain(s.trace, s2.trace, r.trace);
        r
  }

  /** The outer loop over the workflows, from workflow `k` on. */
  function ScanWorkflows(quota: nat -> int, ws: seq<Workflow>, k: nat, s: Scan): (r: Scan)
    requires k <= |ws|
    ensures Gated(s.trace) ==> Gated(r.trace)
    ensures WithArtifacts(s.found) ==> WithArtifacts(r.found)
    ensures |r.found| >= |s.found| && r.found[..|s.found|] == s.found
    ensures r.limit + |r.found| == s.limit + |s.found|
    ensures s.limit > 0 ==> r.limit >= 0
    ensures |r.trace| >= |s.trace| && r.trace[..|s.trace|] == s.trace
    decreases |ws| - k
  {
    if k == |ws| then s
    else
      var g := Gate(quota, s, FetchRuns(k));
      var s2 := if quota(s.used) > Floor then ScanRuns(quota, k, ws[k].runs, 0, g) else g;
      ExtendsChain(s.trace, g.trace, s2.trace);
      if s2.limit <= 0 then s2
      else
        var r := ScanWorkflows(quota, ws, k + 1, s2);
        assert r.found[..|s.found|] == r.found[..|s2.found|][..|s.found|];
        ExtendsChain(s.trace, s2.trace, r.trace);
        r
  }

  /** What a scan found: the releases and the runs, each in listing order. */
  datatype Found = Found(releases: seq<Entry>, runs: seq<WorkflowRun>)
  {
    /** The unsorted result list: releases, then runs. */
    function Entries(): seq<Entry> {
      releases + RunEntries(runs)
    }
  }

  function RunEntries(runs: seq<WorkflowRun>): (r: seq<Entry>)
    ensures |r| == |runs|
    ensures forall i :: 0 <= i < |runs| ==> r[i] == Run(runs[i])
  {
    if |runs| == 0 then [] else [Run(runs[0])] + RunEntries(runs[1..])
  }

  /** The outcome of a scan, and the calls it made. */
  datatype Scanned = Scanned(found: Result<Found, Exception>, trace: seq<Call>)

  /** The scan of `getAvailableGames`. The repository handle is fetched
      only when the first reading passes; when it does not, but the second
      one does and runs are wanted, listing the workflows dereferences the
      missing handle and throws before any request is sent.
      `FetchReleases` stands for both `getRepository` and `listReleases`,
      which run together under the first reading. Remote listings always
      succeed here; their I/O failures are not modelled. */
  function FetchCatalog(quota: nat -> int, repo: Repo, releasesOnly: bool): (r: Scanned)
    ensures Gated(r.trace)
    ensures r.found.Failure? <==> !releasesOnly && quota(0) <= Floor && quota(1) > Floor
    ensures r.found.Failure? ==> r.found.error == NullPointer
    ensures r.found.Failure? ==> r.trace == [Reading(quota(0)), Reading(quota(1))]
    ensures releasesOnly ==> r.trace == [Reading(quota(0))] + (if quota(0) > Floor then [FetchReleases] else [])
    ensures r.found.Success? ==>
      && r.found.value.releases == (if quota(0) > Floor then repo.releases else [])
      && |r.found.value.runs| <= RunLimit
      && WithArtifacts(r.found.value.runs)
      && (releasesOnly ==> r.found.value.runs == [])
    ensures r.found.Success? ==>
      && r.found.value.runs == Qualifying(Fetched(repo.workflows, r.trace))
      && Subsequence(r.found.value.runs, Qualifying(AllRuns(repo.workflows)))
  {
    var ws := repo.workflows;
    var s := Scan(0, [], RunLimit, []);
    var s0 := Gate(quota, s, FetchReleases);
    GateListsNothing(quota, ws, s, FetchReleases);
    var releases := if quota(0) > Floor then repo.releases else [];
    if releasesOnly then Scanned(Success(Found(releases, [])), s0.trace)
    else
      var s1 := Gate(quota, s0, FetchWorkflows);
      GateListsNothing(quota, ws, s0, FetchWorkflows);
      if quota(1) <= Floor then Scanned(Success(Found(releases, [])), s1.trace)
      else if quota(0) <= Floor then Scanned(Failure(NullPointer), Peek(quota, s0).trace)
      else
        PeekListsNothing(quota, ws, s1);
        var done := FullScan(quota, ws, Peek(quota, s1));
        Scanned(Success(Found(releases, done.found)), done.trace)
  }

  /** The workflow loop of a full scan, run when the third reading passes,
      after calls that found nothing and listed no artifacts. The runs it
      finds are those with artifacts among the runs whose artifacts its
      trace lists, in order. */
  function FullScan(quota: nat -> int, ws: seq<Workflow>, s2: Scan): (r: Scan)
    requires s2.found == [] && Fetched(ws, s2.trace) == []
    ensures Gated(s2.trace) ==> Gated(r.trace)
    ensures WithArtifacts(r.found)
    ensures s2.limit > 0 ==> |r.found| <= s2.limit
    ensures |r.trace| >= |s2.trace| && r.trace[..|s2.trace|] == s2.trace
    ensures r.found == Qualifying(Fetched(ws, r.trace))
    ensures Subsequence(r.found, Qualifying(AllRuns(ws)))
  {
    var r := if quota(2) > Floor then ScanWorkflows(quota, ws, 0, s2) else s2;
    ScanCatalog(quota, ws, s2);
    CatalogRuns(ws, s2, r);
    r
  }

  /** A gated call that is no artifact listing adds no listed run. */
  lemma GateListsNothing(quota: nat -> int, ws: seq<Workflow>, s: Scan, fetch: Call)
    requires !fetch.Reading? && !fetch.FetchArtifacts?
    ensures Fetched(ws, Gate(quota, s, fetch).trace) == Fetched(ws, s.trace)
  {
    var t := Gate(quota, s, fetch).trace;
    GateFetched(quota, ws, s, fetch);
    assert t == s.trace + t[|s.trace|..];
    FetchedAppend(ws, s.trace, t[|s.trace|..]);
    assert Fetched(ws, s.trace) + [] == Fetched(ws, s.trace);
  }

  /** A reading adds no listed run. */
  lemma PeekListsNothing(quota: nat -> int, ws: seq<Workflow>, s: Scan)
    ensures Fetched(ws, Peek(quota, s).trace) == Fetched(ws, s.trace)
  {
    var c := Reading(quota(s.used));
    FetchedAppend(ws, s.trace, [c]);
    assert Fetched(ws, [c]) == [] + Fetched(ws, []);
    assert Fetched(ws, s.trace) + [] == Fetched(ws, s.trace);
  }

  /** The workflow loop over all workflows, when the third reading lets
      it run. */
  lemma ScanCatalog(quota: nat -> int, ws: seq<Workflow>, s2: Scan)
    ensures Keeps(ws, s2, if quota(2) > Floor then ScanWorkflows(quota, ws, 0, s2) else s2, AllRuns(ws))
  {
    if quota(2) > Floor {
      ScanWorkflowsFetched(quota, ws, 0, s2);
      assert ws[0..] == ws;
    } else {
      KeepsNothing(ws, s2, AllRuns(ws));
    }
  }

  /** The runs of a full scan: those the workflow loop keeps, after calls
      that list no artifacts. */
  lemma CatalogRuns(ws: seq<Workflow>, s2: Scan, done: Scan)
    requires s2.found == [] && Fetched(ws, s2.trace) == []
    requires Keeps(ws, s2, done, AllRuns(ws))
    ensures done.found == Qualifying(Fetched(ws, done.trace))
    ensures Subsequence(done.found, Qualifying(AllRuns(ws)))
  {
    var rest := done.trace[|s2.trace|..];
    assert done.trace == s2.trace + rest;
    FetchedAfterNothing(ws, s2.trace, rest);
    assert [] + Qualifying(Fetched(ws, rest)) == Qualifying(Fetched(ws, rest));
    QualifyingSubsequence(Fetched(ws, rest), AllRuns(ws));
  }

  /** Calls that list nothing, followed by `u`, list what `u` lists. */
  lemma FetchedAfterNothing(ws: seq<Workflow>, t: seq<Call>, u: seq<Call>)
    requires Fetched(ws, t) == []
    ensures Fetched(ws, t + u) == Fetched(ws, u)
  {
    FetchedAppend(ws, t, u);
    assert [] + Fetched(ws, u) == Fetched(ws, u);
  }

  /** The runs with at least one artifact, in order. */
  function Qualifying(runs: seq<WorkflowRun>): seq<WorkflowRun> {
    if |runs| == 0 then []
    else Added(runs[0]) + Qualifying(runs[1..])
  }

  /** All runs of all workflows, workflow by workflow. */
  function AllRuns(ws: seq<Workflow>): seq<WorkflowRun> {
    if |ws| == 0 then [] else ws[0].runs + AllRuns(ws[1..])
  }

  /** The first `n` elements, or all when there are fewer. */
  function Take<T>(s: seq<T>, n: int): (r: seq<T>)
    ensures |r| == if n <= 0 then 0 else if n < |s| then n else |s|
    ensures r == s[..|r|]
  {
    if n <= 0 then [] else if n >= |s| then s else s[..n]
  }

  lemma {:induction false} QualifyingAppend(a: seq<WorkflowRun>, b: seq<WorkflowRun>)
    ensures Qualifying(a + b) == Qualifying(a) + Qualifying(b)
    decreases |a|
  {
    if |a| == 0 {
      assert a + b == b;
    } else {
      QualifyingAppend(a[1..], b);
      assert (a + b)[0] == a[0];
      assert (a + b)[1..] == a[1..] + b;
      var h := Added(a[0]);
      assert Qualifying(a + b) == h + (Qualifying(a[1..]) + Qualifying(b));
      assert h + (Qualifying(a[1..]) + Qualifying(b)) == (h + Qualifying(a[1..])) + Qualifying(b);
    }
  }

  lemma TakeAppend<T>(a: seq<T>, b: seq<T>, n: int)
    ensures Take(a + b, n) == Take(a, n) + Take(b, n - |Take(a, n)|)
  {
    if n > 0 && n <= |a| {
      assert (a + b)[..n] == a[..n];
    } else if n > |a| {
      assert (a + b)[..|Take(a + b, n)|] == a + b[..|Take(a + b, n)| - |a|];
    }
  }

  /** One step of the run loop when the reading passes. */
  lemma ScanRunsStep(quota: nat -> int, w: nat, runs: seq<WorkflowRun>, j: nat, s: Scan)
    requires j < |runs| && quota(s.used) > Floor
    ensures var s2 := Advance(Gate(quota, s, FetchArtifacts(w, j)), runs[j]);
      ScanRuns(quota, w, runs, j, s) == if s2.limit <= 0 then s2 else ScanRuns(quota, w, runs, j + 1, s2)
  {
  }

  lemma QualifyingFromRun(runs: seq<WorkflowRun>, j: nat)
    requires j < |runs|
    ensures Qualifying(runs[j..]) == Added(runs[j]) + Qualifying(runs[j + 1..])
  {
    assert runs[j..][0] == runs[j] && runs[j..][1..] == runs[j + 1..];
  }

  /** With every reading above the floor the run loop keeps the qualifying
      runs from run `j` on until the countdown reaches zero. */
  lemma {:induction false} ScanRunsAllPass(quota: nat -> int, w: nat, runs: seq<WorkflowRun>, j: nat, s: Scan)
    requires j <= |runs|
    requires forall n :: quota(n) > Floor
    requires s.limit > 0
    ensures ScanRuns(quota, w, runs, j, s).found == s.found + Take(Qualifying(runs[j..]), s.limit)
    decreases |runs| - j
  {
    if j < |runs| {
      var h := Added(runs[j]);
      var s2 := Advance(Gate(quota, s, FetchArtifacts(w, j)), runs[j]);
      ScanRunsStep(quota, w, runs, j, s);
      if s2.limit > 0 {
        ScanRunsAllPass(quota, w, runs, j + 1, s2);
      }
      QualifyingFromRun(runs, j);
      assert Take(h, s.limit) == h;
      TakeSplit(s.found, h, Qualifying(runs[j + 1..]), s.limit, s2.found, s2.limit, ScanRuns(quota, w, runs, j, s).found);
    }
  }

  /** One step of the workflow loop when the reading passes. */
  lemma ScanWorkflowsStep(quota: nat -> int, ws: seq<Workflow>, k: nat, s: Scan)
    requires k < |ws| && quota(s.used) > Floor
    ensures var s2 := ScanRuns(quota, k, ws[k].runs, 0, Gate(quota, s, FetchRuns(k)));
      ScanWorkflows(quota, ws, k, s) == if s2.limit <= 0 then s2 else ScanWorkflows(quota, ws, k + 1, s2)
  {
  }

  /** The qualifying runs from workflow `k` on: those of workflow `k`,
      then those of the rest. */
  lemma {:induction false} QualifyingFrom(ws: seq<Workflow>, k: nat)
    requires k < |ws|
    ensures Qualifying(AllRuns(ws[k..])) == Qualifying(ws[k].runs) + Qualifying(AllRuns(ws[k + 1..]))
  {
    assert ws[k..][0] == ws[k] && ws[k..][1..] == ws[k + 1..];
    assert AllRuns(ws[k..]) == ws[k].runs + AllRuns(ws[k + 1..]);
    QualifyingAppend(ws[k].runs, AllRuns(ws[k + 1..]));
  }

  /** How the countdown splits a budget `n` between two stretches. */
  lemma TakeSplit<T>(prefix: seq<T>, a: seq<T>, b: seq<T>, n: int, mid: seq<T>, m: int, result: seq<T>)
    requires n > 0
    requires mid == prefix + Take(a, n) && m == n - |Take(a, n)|
    requires m <= 0 ==> result == mid
    requires m > 0 ==> result == mid + Take(b, m)
    ensures result == prefix + Take(a + b, n)
  {
    TakeAppend(a, b, n);
  }

  /** With every reading above the floor the workflow loop keeps the
      qualifying runs of workflows `k` on until the countdown reaches zero. */
  lemma {:induction false} ScanWorkflowsAllPass(quota: nat -> int, ws: seq<Workflow>, k: nat, s: Scan)
    requires k <= |ws|
    requires forall n :: quota(n) > Floor
    requires s.limit > 0
    ensures ScanWorkflows(quota, ws, k, s).found == s.found + Take(Qualifying(AllRuns(ws[k..])), s.limit)
    decreases |ws| - k
  {
    if k < |ws| {
      var g := Gate(quota, s, FetchRuns(k));
      assert ws[k].runs[0..] == ws[k].runs;
      ScanRunsAllPass(quota, k, ws[k].runs, 0, g);
      var s2 := ScanRuns(quota, k, ws[k].runs, 0, g);
      ScanWorkflowsStep(quota, ws, k, s);
      if s2.limit > 0 {
        ScanWorkflowsAllPass(quota, ws, k + 1, s2);
      }
      QualifyingFrom(ws, k);
      TakeSplit(s.found, Qualifying(ws[k].runs), Qualifying(AllRuns(ws[k + 1..])), s.limit,
                s2.found, s2.limit, ScanWorkflows(quota, ws, k, s).found);
    }
  }

  /** Reference behaviour: with every reading above the floor the scan
      lists all releases and the first 30 runs with artifacts, workflow by
      workflow. */
  lemma FetchCatalogAllPass(quota: nat -> int, repo: Repo)
    requires forall n :: quota(n) > Floor
    ensures FetchCatalog(quota, repo, false).found
         == Success(Found(repo.releases, Take(Qualifying(AllRuns(repo.workflows)), RunLimit)))
  {
    var s0 := Gate(quota, Scan(0, [], RunLimit, []), FetchReleases);
    var s1 := Gate(quota, s0, FetchWorkflows);
    ScanWorkflowsAllPass(quota, repo.workflows, 0, Peek(quota, s1));
    assert repo.workflows[0..] == repo.workflows;
  }

  /** The run whose artifacts call `c` lists, when `ws` has one there. */
  function FetchedBy(ws: seq<Workflow>, c: Call): seq<WorkflowRun> {
    if c.FetchArtifacts? && c.workflow < |ws| && c.run < |ws[c.workflow].runs|
    then [ws[c.workflow].runs[c.run]]
    else []
  }

  /** The runs whose artifacts the calls of `t` list, in call order. */
  function Fetched(ws: seq<Workflow>, t: seq<Call>): seq<WorkflowRun> {
    if |t| == 0 then [] else FetchedBy(ws, t[0]) + Fetched(ws, t[1..])
  }

  lemma {:induction false} FetchedAppend(ws: seq<Workflow>, t: seq<Call>, u: seq<Call>)
    ensures Fetched(ws, t + u) == Fetched(ws, t) + Fetched(ws, u)
    decreases |t|
  {
    if |t| == 0 {
      assert t + u == u;
    } else {
      FetchedAppend(ws, t[1..], u);
      assert (t + u)[0] == t[0];
      assert (t + u)[1..] == t[1..] + u;
      var h := FetchedBy(ws, t[0]);
      assert Fetched(ws, t + u) == h + (Fetched(ws, t[1..]) + Fetched(ws, u));
      assert h + (Fetched(ws, t[1..]) + Fetched(ws, u)) == (h + Fetched(ws, t[1..])) + Fetched(ws, u);
    }
  }

  /** Keeping the runs with artifacts preserves being a subsequence. */
  lemma {:induction false} QualifyingSubsequence(a: seq<WorkflowRun>, b: seq<WorkflowRun>)
    requires Subsequence(a, b)
    ensures Subsequence(Qualifying(a), Qualifying(b))
    decreases |b|
  {
    if |a| > 0 {
      var h := Added(b[0]);
      assert Qualifying(b) == h + Qualifying(b[1..]);
      if a[0] == b[0] && Subsequence(a[1..], b[1..]) {
        QualifyingSubsequence(a[1..], b[1..]);
        SubsequenceRefl(h);
        SubsequenceAppend(h, h, Qualifying(a[1..]), Qualifying(b[1..]));
      } else {
        QualifyingSubsequence(a, b[1..]);
        SubsequenceAppend([], h, Qualifying(a), Qualifying(b[1..]));
        assert [] + Qualifying(a) == Qualifying(a);
      }
    }
  }

  /** Scan `r` continues scan `s`: its trace extends that of `s`, and it
      adds to the runs found exactly those with artifacts among the runs
      whose artifacts its further calls list, which are taken in order
      from `b`. */
  predicate Keeps(ws: seq<Workflow>, s: Scan, r: Scan, b: seq<WorkflowRun>) {
    && |r.trace| >= |s.trace|
    && r.trace[..|s.trace|] == s.trace
    && r.found == s.found + Qualifying(Fetched(ws, r.trace[|s.trace|..]))
    && Subsequence(Fetched(ws, r.trace[|s.trace|..]), b)
  }

  lemma KeepsChain(ws: seq<Workflow>, s: Scan, s2: Scan, r: Scan, b1: seq<WorkflowRun>, b2: seq<WorkflowRun>)
    requires Keeps(ws, s, s2, b1) && Keeps(ws, s2, r, b2)
    ensures Keeps(ws, s, r, b1 + b2)
  {
    var t1 := s2.trace[|s.trace|..];
    var t2 := r.trace[|s2.trace|..];
    ExtendsChain(s.trace, s2.trace, r.trace);
    FoundChain(ws, s.found, s2.found, r.found, t1, t2);
    SubsequenceAppend(Fetched(ws, t1), b1, Fetched(ws, t2), b2);
  }

  /** The runs kept over two stretches of calls are those kept over both. */
  lemma FoundChain(ws: seq<Workflow>, a: seq<WorkflowRun>, b: seq<WorkflowRun>, c: seq<WorkflowRun>,
                   t1: seq<Call>, t2: seq<Call>)
    requires b == a + Qualifying(Fetched(ws, t1)) && c == b + Qualifying(Fetched(ws, t2))
    ensures Fetched(ws, t1 + t2) == Fetched(ws, t1) + Fetched(ws, t2)
    ensures c == a + Qualifying(Fetched(ws, t1 + t2))
  {
    FetchedAppend(ws, t1, t2);
    var q1, q2 := Qualifying(Fetched(ws, t1)), Qualifying(Fetched(ws, t2));
    QualifyingAppend(Fetched(ws, t1), Fetched(ws, t2));
    AppendAssoc(a, q1, q2);
  }

  lemma KeepsWider(ws: seq<Workflow>, s: Scan, r: Scan, b1: seq<WorkflowRun>, b2: seq<WorkflowRun>)
    requires Keeps(ws, s, r, b1)
    ensures Keeps(ws, s, r, b1 + b2)
  {
    var f := Fetched(ws, r.trace[|s.trace|..]);
    SubsequenceAppend(f, b1, [], b2);
    assert f + [] == f;
  }

  lemma KeepsNothing(ws: seq<Workflow>, s: Scan, b: seq<WorkflowRun>)
    ensures Keeps(ws, s, s, b)
  {
    assert s.trace[|s.trace|..] == [];
    assert s.found + [] == s.found;
  }

  /** The runs a gated call lists: those of `fetch` when the reading passes. */
  lemma GateFetched(quota: nat -> int, ws: seq<Workflow>, s: Scan, fetch: Call)
    requires !fetch.Reading?
    ensures var g := Gate(quota, s, fetch);
      Fetched(ws, g.trace[|s.trace|..]) == if quota(s.used) > Floor then FetchedBy(ws, fetch) else []
  {
    var seg := Gate(quota, s, fetch).trace[|s.trace|..];
    var tail := if quota(s.used) > Floor then [fetch] else [];
    assert seg == [Reading(quota(s.used))] + tail;
    assert seg[0].Reading? && seg[1..] == tail;
    assert Fetched(ws, seg) == [] + Fetched(ws, tail);
    if quota(s.used) > Floor {
      assert tail[1..] == [];
      assert Fetched(ws, tail) == FetchedBy(ws, fetch) + [];
    }
  }

  /** One step of the run loop keeps run `j` exactly when its artifacts
      were listed and it has some. */
  lemma RunStepKeeps(quota: nat -> int, ws: seq<Workflow>, w: nat, j: nat, s: Scan)
    requires w < |ws| && j < |ws[w].runs|
    ensures var g := Gate(quota, s, FetchArtifacts(w, j));
      Keeps(ws, s, if quota(s.used) > Floor then Advance(g, ws[w].runs[j]) else g, [ws[w].runs[j]])
  {
    var run := ws[w].runs[j];
    var pass := quota(s.used) > Floor;
    var h := if pass then [run] else [];
    GateFetched(quota, ws, s, FetchArtifacts(w, j));
    assert Qualifying(h) == if pass then Added(run) else [];
    if pass {
      SubsequenceRefl(h);
    } else {
      assert s.found + [] == s.found;
    }
  }

  /** The run loop keeps the runs with artifacts among those whose
      artifacts it lists, which are runs of workflow `w` from run `j` on,
      in order. */
  lemma {:induction false} ScanRunsFetched(quota: nat -> int, ws: seq<Workflow>, w: nat, j: nat, s: Scan)
    requires w < |ws| && j <= |ws[w].runs|
    ensures Keeps(ws, s, ScanRuns(quota, w, ws[w].runs, j, s), ws[w].runs[j..])
    decreases |ws[w].runs| - j
  {
    var runs := ws[w].runs;
    if j == |runs| {
      KeepsNothing(ws, s, runs[j..]);
    } else {
      var g := Gate(quota, s, FetchArtifacts(w, j));
      var s2 := if quota(s.used) > Floor then Advance(g, runs[j]) else g;
      RunStepKeeps(quota, ws, w, j, s);
      assert runs[j..] == [runs[j]] + runs[j + 1..];
      if s2.limit <= 0 {
        KeepsWider(ws, s, s2, [runs[j]], runs[j + 1..]);
      } else {
        ScanRunsFetched(quota, ws, w, j + 1, s2);
        KeepsChain(ws, s, s2, ScanRuns(quota, w, runs, j + 1, s2), [runs[j]], runs[j + 1..]);
      }
    }
  }

  /** A gated call that is no artifact listing keeps nothing. */
  lemma GateKeepsNone(quota: nat -> int, ws: seq<Workflow>, s: Scan, fetch: Call)
    requires !fetch.Reading? && !fetch.FetchArtifacts?
    ensures Keeps(ws, s, Gate(quota, s, fetch), [])
  {
    GateFetched(quota, ws, s, fetch);
    assert s.found + [] == s.found;
  }

  /** The first step of the workflow loop keeps the runs with artifacts
      among those of workflow `k` whose artifacts it lists. */
  lemma WorkflowStepKeeps(quota: nat -> int, ws: seq<Workflow>, k: nat, s: Scan)
    requires k < |ws|
    ensures var g := Gate(quota, s, FetchRuns(k));
      Keeps(ws, s, if quota(s.used) > Floor then ScanRuns(quota, k, ws[k].runs, 0, g) else g, ws[k].runs)
  {
    var g := Gate(quota, s, FetchRuns(k));
    GateKeepsNone(quota, ws, s, FetchRuns(k));
    assert [] + ws[k].runs == ws[k].runs;
    if quota(s.used) > Floor {
      ScanRunsFetched(quota, ws, k, 0, g);
      assert ws[k].runs[0..] == ws[k].runs;
      KeepsChain(ws, s, g, ScanRuns(quota, k, ws[k].runs, 0, g), [], ws[k].runs);
    } else {
      KeepsWider(ws, s, g, [], ws[k].runs);
    }
  }

  /** The workflow loop keeps the runs with artifacts among those whose
      artifacts it lists, which are runs of workflows `k` on, in order. */
  lemma {:induction false} ScanWorkflowsFetched(quota: nat -> int, ws: seq<Workflow>, k: nat, s: Scan)
    requires k <= |ws|
    ensures Keeps(ws, s, ScanWorkflows(quota, ws, k, s), AllRuns(ws[k..]))
    decreases |ws| - k
  {
    if k == |ws| {
      KeepsNothing(ws, s, AllRuns(ws[k..]));
    } else {
      var g := Gate(quota, s, FetchRuns(k));
      var s2 := if quota(s.used) > Floor then ScanRuns(quota, k, ws[k].runs, 0, g) else g;
      WorkflowStepKeeps(quota, ws, k, s);
      assert ws[k..][0] == ws[k] && ws[k..][1..] == ws[k + 1..];
      assert AllRuns(ws[k..]) == ws[k].runs + AllRuns(ws[k + 1..]);
      if s2.limit <= 0 {
        KeepsWider(ws, s, s2, ws[k].runs, AllRuns(ws[k + 1..]));
      } else {
        ScanWorkflowsFetched(quota, ws, k + 1, s2);
        KeepsChain(ws, s, s2, ScanWorkflows(quota, ws, k + 1, s2), ws[k].runs, AllRuns(ws[k + 1..]));
      }
    }
  }

  /** The static cache slot of `getAvailableGames`: the sorted list and
      its expiry. */
  datatype Cache = Cache(games: Option<seq<Entry>>, expiry: Option<Instant>)

  /** The slot is refreshed when it is empty or `now` is strictly after its
      expiry. */
  predicate NeedsRefresh(c: Cache, now: Instant) {
    c.games.None? || (c.expiry.Some? && now > c.expiry.value)
  }

  /** The result of one call, the slot afterwards and the calls it made. */
  datatype Lookup = Lookup(result: Result<seq<Entry>, Exception>, cache: Cache, trace: seq<Call>)

  /** `getAvailableGames`: on a refresh the scan result is sorted by
      `sortGHObjectByDate` and stored with expiry `now` + 60 minutes;
      otherwise the stored list is returned without any call. A scan or
      sort that throws leaves the slot as it was. */
  function GetAvailableGames(c: Cache, now: Instant, quota: nat -> int, repo: Repo, releasesOnly: bool)
    : (o: Lookup)
    ensures !NeedsRefresh(c, now) ==> o == Lookup(Success(c.games.value), c, [])
    ensures NeedsRefresh(c, now) ==> o.trace == FetchCatalog(quota, repo, releasesOnly).trace && Gated(o.trace)
    ensures o.result.Failure? ==> o.cache == c && o.result.error == NullPointer
    ensures o.result.Success? ==> o.cache.games == Some(o.result.value)
    ensures NeedsRefresh(c, now) ==>
      var found := FetchCatalog(quota, repo, releasesOnly).found;
      && (o.result.Failure? <==> found.Failure? || SortGHObjectByDate(found.value.Entries()).Failure?)
      && (o.result.Success? ==>
            && o.cache.expiry == Some(now + TtlMs)
            && StableSortOf(o.result.value, found.value.Entries(), DateKey))
  {
    if !NeedsRefresh(c, now) then Lookup(Success(c.games.value), c, [])
    else
      var scanned := FetchCatalog(quota, repo, releasesOnly);
      if scanned.found.Failure? then Lookup(Failure(scanned.found.error), c, scanned.trace)
      else
        var sorted := SortGHObjectByDate(scanned.found.value.Entries());
        if sorted.Failure? then Lookup(Failure(sorted.error), c, scanned.trace)
        else Lookup(Success(sorted.value), Cache(Some(sorted.value), Some(now + TtlMs)), scanned.trace)
  }

  /** After a successful refresh at `t`, every call up to `t` + 60 minutes
      is served from the slot, with the same list and no call, whatever its
      quota, repository and `releasesOnly`; any later call refreshes. */
  lemma CacheTtl(c: Cache, t: Instant, quota: nat -> int, repo: Repo, releasesOnly: bool,
                 t2: Instant, quota2: nat -> int, repo2: Repo, releasesOnly2: bool)
    requires NeedsRefresh(c, t)
    requires GetAvailableGames(c, t, quota, repo, releasesOnly).result.Success?
    ensures var first := GetAvailableGames(c, t, quota, repo, releasesOnly);
      t2 <= t + TtlMs ==>
        GetAvailableGames(first.cache, t2, quota2, repo2, releasesOnly2) == Lookup(first.result, first.cache, [])
    ensures var first := GetAvailableGames(c, t, quota, repo, releasesOnly);
      t2 > t + TtlMs ==> NeedsRefresh(first.cache, t2)
  {
  }

  /** The flag is not part of the cache key: a releases-only list stored
      by one call is what a later call asking for runs too gets back. */
  lemma ReleasesOnlyListServedToFullScan(c: Cache, t: Instant, quota: nat -> int, repo: Repo,
                                         t2: Instant, quota2: nat -> int)
    requires NeedsRefresh(c, t) && t2 <= t + TtlMs
    requires forall i :: 0 <= i < |repo.releases| ==> repo.releases[i].Release?
    requires GetAvailableGames(c, t, quota, repo, true).result.Success?
    ensures var second := GetAvailableGames(GetAvailableGames(c, t, quota, repo, true).cache, t2, quota2, repo, false);
      && second.trace == []
      && second.result.Success?
      && forall i :: 0 <= i < |second.result.value| ==> second.result.value[i].Release?
  {
    var first := GetAvailableGames(c, t, quota, repo, true);
    var found := FetchCatalog(quota, repo, true).found.value;
    assert found.Entries() == found.releases;
    forall i | 0 <= i < |first.result.value| ensures first.result.value[i].Release? {
      assert first.result.value[i] in multiset(found.Entries());
    }
  }
}

=== FILE: catalog.dfy ===
/** The remote objects the installer lists and installs, and the
  date sorts applied to them (`Util.sort*ByDate`, `Util.getDateFor`).

  A GitHub object is a release, a workflow run, or some other object;
  only the first two are installable. Timestamps are milliseconds since
  the epoch and `None` stands for a `null` date.
 */
module Catalog {
  import opened Wrappers
  import opened Ordering

  /** Milliseconds since the epoch (`java.util.Date`, `java.time.Instant`). */
  type Instant = int

  /** A file attached to a release. */
  datatype Asset = Asset(name: string, browserDownloadUrl: string)

  /** A file produced by a workflow run. */
  datatype Artifact = Artifact(name: string, updatedAt: Option<Instant>, archiveDownloadUrl: string)

  /** One execution of a CI workflow. */
  datatype WorkflowRun = WorkflowRun(
    id: int,
    name: string,
    createdAt: Option<Instant>,
    updatedAt: Option<Instant>,
    headBranch: string,
    runNumber: int,
    artifacts: seq<Artifact>)

  /** A GitHub object as the installer sees it (`GHObject`). */
  datatype Entry =
    | Release(
        id: int,
        name: string,
        createdAt: Option<Instant>,
        updatedAt: Option<Instant>,
        publishedAt: Option<Instant>,
        assets: seq<Asset>)
    | Run(run: WorkflowRun)
    | OtherObject(id: int, createdAt: Option<Instant>, updatedAt: Option<Instant>)
  {
    /** `getId()`. */
    function Id(): int {
      match this
      case Release(id, _, _, _, _, _) => id
      case Run(run) => run.id
      case OtherObject(id, _, _) => id
    }

    /** `getUpdatedAt()`. */
    function UpdatedAt(): Option<Instant> {
      match this
      case Release(_, _, _, updatedAt, _, _) => updatedAt
      case Run(run) => run.updatedAt
      case OtherObject(_, _, updatedAt) => updatedAt
    }

    /** `getCreatedAt()`. */
    function CreatedAt(): Option<Instant> {
      match this
      case Release(_, _, createdAt, _, _, _) => createdAt
      case Run(run) => run.createdAt
      case OtherObject(_, createdAt, _) => createdAt
    }
  }

  /** `getDateFor`: the publish date of a release, the update date of
      anything else. */
  function GetDateFor(e: Entry): Option<Instant> {
    if e.Release? then e.publishedAt else e.UpdatedAt()
  }

  predicate Dated(e: Entry) {
    GetDateFor(e).Some?
  }

  /** The sort key of a catalog entry; only consulted for dated entries
      or for lists too short to be compared. */
  function DateKey(e: Entry): int {
    GetDateFor(e).GetOr(0)
  }

  /** Both dates are present and the first is not older. */
  predicate NotOlder(a: Option<Instant>, b: Option<Instant>) {
    a.Some? && b.Some? && a.value >= b.value
  }

  /** `sortGHObjectByDate`: a sorted copy, newest first by `getDateFor`.
      Its comparator dereferences both dates without a null check, and
      the library sort compares every element of a list of two or more,
      so one undated entry in such a list makes the sort throw. */
  function SortGHObjectByDate(s: seq<Entry>): (r: Result<seq<Entry>, Exception>)
    ensures r.Failure? <==> |s| >= 2 && exists i :: 0 <= i < |s| && !Dated(s[i])
    ensures r.Failure? ==> r.error == NullPointer
    ensures r.Success? ==> StableSortOf(r.value, s, DateKey)
    ensures r.Success? && |s| >= 2 ==>
      forall i, j :: 0 <= i < j < |r.value| ==>
        NotOlder(GetDateFor(r.value[i]), GetDateFor(r.value[j]))
  {
    if |s| >= 2 && exists i :: 0 <= i < |s| && !Dated(s[i]) then Failure(NullPointer)
    else
      var sorted := SortDesc(s, DateKey);
      forall x | x in sorted ensures Dated(x) || |s| < 2 {
        assert x in multiset(s);
      }
      forall i, j | 0 <= i < j < |sorted| && |s| >= 2
        ensures NotOlder(GetDateFor(sorted[i]), GetDateFor(sorted[j]))
      {
        assert sorted[i] in sorted && sorted[j] in sorted;
        assert DateKey(sorted[i]) >= DateKey(sorted[j]);
      }
      Success(sorted)
  }

  /** Every release in `s` has a publish date (trivially so for lists
      that the sort never compares). */
  predicate ComparableReleases(s: seq<Entry>) {
    |s| < 2 || forall i :: 0 <= i < |s| ==> s[i].Release? && s[i].publishedAt.Some?
  }

  /** `sortReleaseByDate`: a sorted copy, newest publish date first. */
  function SortReleaseByDate(s: seq<Entry>): (r: seq<Entry>)
    requires forall i :: 0 <= i < |s| ==> s[i].Release?
    requires ComparableReleases(s)
    ensures StableSortOf(r, s, DateKey)
    ensures |s| >= 2 ==>
      forall i, j :: 0 <= i < j < |r| ==> r[i].Release? && r[j].Release? && NotOlder(r[i].publishedAt, r[j].publishedAt)
  {
    var r := SortDesc(s, DateKey);
    forall x | x in r ensures x.Release? && (|s| < 2 || x.publishedAt.Some?) {
      assert x in multiset(s);
    }
    r
  }

  /** `getDateFor` dates a release by its publish date, so on a list of
      releases `sortGHObjectByDate` never throws where `sortReleaseByDate`
      is defined, and both give the same list. */
  lemma ReleaseSortsAgree(s: seq<Entry>)
    requires forall i :: 0 <= i < |s| ==> s[i].Release?
    requires ComparableReleases(s)
    ensures SortGHObjectByDate(s) == Success(SortReleaseByDate(s))
  {
    forall i | 0 <= i < |s| && |s| >= 2 ensures Dated(s[i]) {
      assert GetDateFor(s[i]) == s[i].publishedAt;
    }
  }

  function CreatedKey(run: WorkflowRun): int {
    run.createdAt.GetOr(0)
  }

  /** `sortWorkflowByDate`: a sorted copy, newest creation date first. */
  function SortWorkflowByDate(s: seq<WorkflowRun>): (r: seq<WorkflowRun>)
    requires |s| < 2 || forall i :: 0 <= i < |s| ==> s[i].createdAt.Some?
    ensures StableSortOf(r, s, CreatedKey)
    ensures |s| >= 2 ==>
      forall i, j :: 0 <= i < j < |r| ==> NotOlder(r[i].createdAt, r[j].createdAt)
  {
    var r := SortDesc(s, CreatedKey);
    forall x | x in r ensures |s| < 2 || x.createdAt.Some? {
      assert x in multiset(s);
    }
    r
  }

  function UpdatedKey(a: Artifact): int {
    a.updatedAt.GetOr(0)
  }

  /** `sortArtifactsByDate`: a sorted copy, newest update date first. */
  function SortArtifactsByDate(s: seq<Artifact>): (r: seq<Artifact>)
    requires |s| < 2 || forall i :: 0 <= i < |s| ==> s[i].updatedAt.Some?
    ensures StableSortOf(r, s, UpdatedKey)
    ensures |s| >= 2 ==>
      forall i, j :: 0 <= i < j < |r| ==> NotOlder(r[i].updatedAt, r[j].updatedAt)
  {
    var r := SortDesc(s, UpdatedKey);
    forall x | x in r ensures |s| < 2 || x.updatedAt.Some? {
      assert x in multiset(s);
    }
    r
  }
}

=== FILE: extraction.dfy ===
/** The zip-slip guard and entry loop shared by `Util.unzip` and
  `Util.unzipSelfExtractingZip`.

  Each archive entry is written to `new File(target, entry.getName())`;
  before anything is written, the normalised destination must start with
  `target`, otherwise the method throws and no later entry is looked at.
  Decoding the archive (plain or behind an executable stub), copying
  bytes and setting modification times are not modelled; an archive is
  its sequence of entries.
 */
module Extraction {
  import opened Wrappers
  import opened Text
  import opened Paths
  import opened Layout

  /** A `ZipEntry`: the name as stored in the archive. */
  datatype ZipEntry = ZipEntry(name: string, isDirectory: bool)

  /** `new File(target, name).toPath().normalize()`. */
  function Destination(target: Path, name: string): Path {
    Normalize(Child(target, name))
  }

  /** The guard: the normalised destination starts with `target`. */
  predicate Contained(target: Path, name: string) {
    StartsWith(Destination(target, name), target)
  }

  predicate AllContained(target: Path, entries: seq<ZipEntry>) {
    forall i :: 0 <= i < |entries| ==> Contained(target, entries[i].name)
  }

  /** The entry loop. `written` lists the destinations created, in archive
      order (a directory for a directory entry, a file otherwise). Either
      every entry passes the guard and every entry is written, or the
      first entry that fails it stops the loop with
      "Bad ZIP entry <name>" after exactly the entries before it. The guard
      is the only failure modelled: a file entry whose parent folder does
      not exist yet is written here, although `unzip` cannot write it. */
  method ExtractEntries(target: Path, entries: seq<ZipEntry>)
    returns (written: seq<Path>, failure: Option<Exception>)
    ensures failure.None? <==> AllContained(target, entries)
    ensures failure.None? ==> |written| == |entries|
    ensures failure.Some? ==>
      && |written| < |entries|
      && !Contained(target, entries[|written|].name)
      && failure.value == IO("Bad ZIP entry " + entries[|written|].name)
    ensures forall i :: 0 <= i < |written| ==>
      written[i] == Destination(target, entries[i].name) && StartsWith(written[i], target)
  {
    written := [];
    var i := 0;
    while i < |entries|
      invariant 0 <= i <= |entries|
      invariant |written| == i
      invariant forall j :: 0 <= j < i ==> Contained(target, entries[j].name)
      invariant forall j :: 0 <= j < i ==>
        written[j] == Destination(target, entries[j].name) && StartsWith(written[j], target)
    {
      var dest := Destination(target, entries[i].name);
      if !StartsWith(dest, target) {
        return written, Some(IO("Bad ZIP entry " + entries[i].name));
      }
      written := written + [dest];
      i := i + 1;
    }
    return written, None;
  }

  /** Every entry whose name has no `..` component is accepted, whatever
      else it contains, as long as the target is a normal path. */
  lemma EntriesWithoutParentAccepted(target: Path, name: string)
    requires IsNormal(target)
    requires forall i :: 0 <= i < |Components(name)| ==> Components(name)[i] != ".."
    ensures Contained(target, name)
  {
    NormalizeChild(target, name);
    ResolveWithoutParentKeepsBase(target, Components(name));
  }

  /** An entry `../x` escapes a normal, non-root target into its parent
      folder and is rejected, unless `x` names the target itself. */
  lemma ParentEntryRejected(target: Path, x: string)
    requires IsNormal(target) && |target| > 0
    requires IsName(x) && forall k :: 0 <= k < |x| ==> x[k] != '/'
    requires x != target[|target| - 1]
    ensures !Contained(target, "../" + x)
  {
    assert "../" + x == ".." + "/" + x;
    ComponentsAfterFirstSlash("..", x);
    assert Components(x) == [x];
    NormalizeChild(target, "../" + x);
    var parent := target[..|target| - 1];
    assert Destination(target, "../" + x) == Resolve(target, ["..", x]);
    assert Resolve(target, ["..", x]) == Resolve(parent, [x]);
    assert Resolve(parent, [x]) == Resolve(parent + [x], []);
    assert Destination(target, "../" + x)[|target| - 1] == x;
  }

  /** An archive entry named `../outside.txt` never passes the guard of a
      game directory, whose last component is a decimal id. */
  lemma OutsideEntryRejectedFromGameDir(home: Path, id: int)
    requires IsNormal(home)
    ensures !Contained(GameDir(home, id), "../outside.txt")
  {
    GameDirPlacement(home, id);
    var dir := GameDir(home, id);
    assert dir[|dir| - 1] == IntToString(id);
    assert IntToString(id)[0] == '-' || IsDigit(IntToString(id)[0]);
    assert "outside.txt"[0] == 'o';
    assert "../outside.txt" == "../" + "outside.txt";
    ParentEntryRejected(dir, "outside.txt");
  }
}

=== FILE: folders.dfy ===
/** Checks and chores on plain folders: recognising a Settlers install CD
  or data folder by the names it contains (`Util.isInstallCD`,
  `Util.isGameFolder`), the week-old temp file cleanup (`Util.cleanTemp`)
  and the newest log directory (`Util.getLatestLogDir`).

  A folder listing is `Option<seq<FileInfo>>`: `None` when `listFiles()`
  returns `null`.
 */
module Folders {
  import opened Wrappers
  import opened Text
  import opened Ordering

  /** What the code reads of a `File` in a listing. */
  datatype FileInfo = FileInfo(name: string, lastModified: int, isDirectory: bool)

  predicate Distinct(s: seq<string>) {
    forall i, j :: 0 <= i < j < |s| ==> s[i] != s[j]
  }

  /** `ArrayList.remove(Object)`: drops the first occurrence of `x`. */
  function RemoveFirst(s: seq<string>, x: string): (r: seq<string>)
    ensures Distinct(s) ==> Distinct(r) && forall y :: y in r <==> y in s && y != x
  {
    if |s| == 0 then []
    else
      assert forall y :: y in s <==> y == s[0] || y in s[1..];
      assert Distinct(s) ==> Distinct(s[1..]) && s[0] !in s[1..] by {
        if Distinct(s) {
          forall i, j | 0 <= i < j < |s| - 1 ensures s[1..][i] != s[1..][j] {
            assert s[1..][i] == s[i + 1] && s[1..][j] == s[j + 1];
          }
        }
      }
      if s[0] == x then s[1..]
      else
        var rest := RemoveFirst(s[1..], x);
        var r := [s[0]] + rest;
        assert Distinct(s) ==> Distinct(r) by {
          if Distinct(s) {
            forall i, j | 0 <= i < j < |r| ensures r[i] != r[j] {
              if i == 0 {
                assert r[j] in rest;
              } else {
                assert r[i] == rest[i - 1] && r[j] == rest[j - 1];
              }
            }
          }
        }
        r
  }

  /** Some entry's lower-cased name is `name`. */
  predicate Listed(entries: seq<FileInfo>, name: string) {
    exists i :: 0 <= i < |entries| && Lower(entries[i].name) == name
  }

  /** The shared loop of `isInstallCD` and `isGameFolder`: remove every
      lower-cased entry name from the list of required names; the folder
      qualifies when nothing is left. */
  method HasRequiredNames(isDirectory: bool, listing: Option<seq<FileInfo>>, required: seq<string>)
    returns (ok: bool)
    requires Distinct(required)
    ensures ok <==> (isDirectory && (|required| == 0 ||
      (listing.Some? && forall k :: 0 <= k < |required| ==> Listed(listing.value, required[k]))))
  {
    if !isDirectory {
      return false;
    }
    var remaining := required;
    if listing.Some? {
      var entries := listing.value;
      var i := 0;
      while i < |entries|
        invariant 0 <= i <= |entries|
        invariant Distinct(remaining)
        invariant forall y :: y in remaining <==> y in required && !Listed(entries[..i], y)
      {
        remaining := RemoveFirst(remaining, Lower(entries[i].name));
        forall y ensures Listed(entries[..i + 1], y) <==> Listed(entries[..i], y) || Lower(entries[i].name) == y {
          if Listed(entries[..i + 1], y) {
            var j :| 0 <= j < i + 1 && Lower(entries[..i + 1][j].name) == y;
            if j < i {
              assert entries[..i][j] == entries[..i + 1][j];
            }
          }
          if Listed(entries[..i], y) {
            var j :| 0 <= j < i && Lower(entries[..i][j].name) == y;
            assert entries[..i + 1][j] == entries[..i][j];
          }
          if Lower(entries[i].name) == y {
            assert entries[..i + 1][i] == entries[i];
          }
        }
        i := i + 1;
      }
      assert entries[..|entries|] == entries;
      ok := |remaining| == 0;
      if !ok {
        assert remaining[0] in remaining;
      }
      if ok {
        forall k | 0 <= k < |required| ensures Listed(entries, required[k]) {
          assert required[k] in required;
          assert required[k] !in remaining;
        }
      }
    } else {
      ok := |remaining| == 0;
    }
  }

  const InstallCdNames: seq<string> := ["autorun.inf", "s3", "s3.dat"]
  const GameFolderNames: seq<string> := ["gfx", "manual", "map", "snd"]

  /** `isInstallCD`: a directory holding `autorun.inf`, `s3` and `s3.dat`,
      in any letter case. */
  method IsInstallCD(isDirectory: bool, listing: Option<seq<FileInfo>>) returns (ok: bool)
    ensures ok <==> (isDirectory && listing.Some?
      && Listed(listing.value, "autorun.inf") && Listed(listing.value, "s3") && Listed(listing.value, "s3.dat"))
  {
    ok := HasRequiredNames(isDirectory, listing, InstallCdNames);
    if ok {
      assert InstallCdNames[0] == "autorun.inf" && InstallCdNames[1] == "s3" && InstallCdNames[2] == "s3.dat";
    }
  }

  /** `isGameFolder`: a directory holding `gfx`, `manual`, `map` and `snd`,
      in any letter case. */
  method IsGameFolder(isDirectory: bool, listing: Option<seq<FileInfo>>) returns (ok: bool)
    ensures ok <==> (isDirectory && listing.Some?
      && Listed(listing.value, "gfx") && Listed(listing.value, "manual")
      && Listed(listing.value, "map") && Listed(listing.value, "snd"))
  {
    ok := HasRequiredNames(isDirectory, listing, GameFolderNames);
    if ok {
      assert GameFolderNames[0] == "gfx" && GameFolderNames[1] == "manual";
      assert GameFolderNames[2] == "map" && GameFolderNames[3] == "snd";
    }
  }

  /** Seven days in milliseconds. */
  const WeekMs: int := 7 * 24 * 60 * 60 * 1000

  /** A temp file last modified strictly before `now` minus seven days. */
  predicate Stale(f: FileInfo, now: int) {
    f.lastModified < now - WeekMs
  }

  /** `cleanTemp`: the entries of the temp folder it deletes, in listing
      order (`StaleFilesAppend`); nothing when the folder is not a
      directory. */
  function CleanTemp(isDirectory: bool, listing: Option<seq<FileInfo>>, now: int): (r: Result<seq<FileInfo>, Exception>)
    ensures r.Failure? <==> isDirectory && listing.None?
    ensures r.Failure? ==> r.error == NullPointer
    ensures !isDirectory ==> r == Success([])
    ensures r.Success? ==> forall f :: f in r.value <==> isDirectory && f in listing.value && Stale(f, now)
  {
    if !isDirectory then Success([])
    else if listing.None? then Failure(NullPointer)
    else Success(StaleFiles(listing.value, now))
  }

  function StaleFiles(files: seq<FileInfo>, now: int): (r: seq<FileInfo>)
    ensures |r| <= |files|
    ensures forall f :: f in r <==> f in files && Stale(f, now)
  {
    if |files| == 0 then []
    else
      var rest := StaleFiles(files[1..], now);
      assert forall f :: f in files <==> f == files[0] || f in files[1..];
      (if Stale(files[0], now) then [files[0]] else []) + rest
  }

  /** The stale files keep their listing order: the stale files of a
      concatenation are those of each part, one after the other. */
  lemma {:induction false} StaleFilesAppend(a: seq<FileInfo>, b: seq<FileInfo>, now: int)
    ensures StaleFiles(a + b, now) == StaleFiles(a, now) + StaleFiles(b, now)
    decreases |a|
  {
    if |a| == 0 {
      assert a + b == b;
    } else {
      StaleFilesAppend(a[1..], b, now);
      var h := if Stale(a[0], now) then [a[0]] else [];
      assert (a + b)[..|a|] == a && (a + b)[1..] == a[1..] + b;
      StaleFilesCons(a, a + b, now);
      StaleFilesCons(a, a, now);
      AppendAssoc(h, StaleFiles(a[1..], now), StaleFiles(b, now));
    }
  }

  /** One step of the filter, with `c` naming `a + b` or `a` itself. */
  lemma StaleFilesCons(a: seq<FileInfo>, c: seq<FileInfo>, now: int)
    requires |a| > 0 && |c| >= |a| && c[..|a|] == a
    ensures StaleFiles(c, now) == (if Stale(a[0], now) then [a[0]] else []) + StaleFiles(c[1..], now)
  {
    assert c[0] == a[0];
  }

  /** The filter keeps a single file exactly when it is stale. */
  lemma StaleFilesSingle(f: FileInfo, now: int)
    ensures StaleFiles([f], now) == if Stale(f, now) then [f] else []
  {
    assert [f][1..] == [];
  }

  /** A later clean deletes everything an earlier one would, and a file
      modified within the last week is never deleted. */
  lemma CleanTempMonotone(isDirectory: bool, listing: Option<seq<FileInfo>>, now1: int, now2: int, f: FileInfo)
    requires now1 <= now2
    requires CleanTemp(isDirectory, listing, now1).Success?
    ensures f in CleanTemp(isDirectory, listing, now1).value ==> f in CleanTemp(isDirectory, listing, now2).value
    ensures f.lastModified >= now2 - WeekMs ==> f !in CleanTemp(isDirectory, listing, now2).value
  {
  }

  /** `getLatestLogDir`: the first entry of the logs folder with the
      greatest modification time, `None` for an empty folder. The listing
      is iterated without a null check. */
  method LatestLogDir(listing: Option<seq<FileInfo>>) returns (r: Result<Option<FileInfo>, Exception>)
    ensures r.Failure? <==> listing.None?
    ensures r.Failure? ==> r.error == NullPointer
    ensures r.Success? ==> (r.value.None? <==> |listing.value| == 0)
    ensures r.Success? && r.value.Some? ==>
      exists k :: 0 <= k < |listing.value| && listing.value[k] == r.value.value
        && (forall j :: 0 <= j < |listing.value| ==> listing.value[j].lastModified <= r.value.value.lastModified)
        && (forall j :: 0 <= j < k ==> listing.value[j].lastModified < r.value.value.lastModified)
  {
    if listing.None? {
      return Failure(NullPointer);
    }
    var dirs := listing.value;
    if |dirs| == 0 {
      return Success(None);
    }
    var best := 0;
    var i := 1;
    while i < |dirs|
      invariant 1 <= i <= |dirs|
      invariant 0 <= best < i
      invariant forall j :: 0 <= j < i ==> dirs[j].lastModified <= dirs[best].lastModified
      invariant forall j :: 0 <= j < best ==> dirs[j].lastModified < dirs[best].lastModified
    {
      if dirs[best].lastModified < dirs[i].lastModified {
        best := i;
      }
      i := i + 1;
    }
    return Success(Some(dirs[best]));
  }
}

=== FILE: install.dfy ===
/** The install pipeline: `Util.installGeneric` (download once, then up
  to six extraction attempts ten seconds apart), `installRelease`,
  `installWorkflowRun` and the dispatch in `installGame`.

  The outside world is an oracle (`Source`): whether the download
  succeeds, the entries of the downloaded archive (and of the
  `JSettlers.zip` nested in a workflow artifact), and for each
  extraction attempt whether a transient I/O failure (a virus scanner
  holding a file, say) makes it throw. An attempt without such a failure
  succeeds exactly when every entry passes the zip-slip guard.
 */
module Install {
  import opened Wrappers
  import opened Text
  import opened Paths
  import opened Catalog
  import opened Layout
  import opened Extraction
  import opened Inventory

  const UnzipAttempts: nat := 6
  const RetryDelayMs: int := 10000

  /** The exception of a transient extraction failure (its message is not
      modelled). */
  const TransientFailure: Exception := IO("transient extraction failure")

  /** What fetching and unpacking a download will do. */
  datatype Source = Source(
    downloadOk: bool,           // the download completes
    archive: seq<ZipEntry>,     // entries of the downloaded zip
    nested: seq<ZipEntry>,      // entries of the JSettlers.zip inside a workflow artifact
    faults: seq<bool>)          // faults[k]: extraction attempt k hits a transient failure

  /** The index of the first attempt among the first `n` without a
      transient failure, or `n` when all of them fail. */
  function FirstClear(faults: seq<bool>, n: nat): (k: nat)
    requires n <= |faults|
    ensures k <= n
    ensures forall j :: 0 <= j < k ==> faults[j]
    ensures k < n ==> !faults[k]
  {
    if n == 0 then 0
    else
      var k := FirstClear(faults, n - 1);
      if k < n - 1 then k else if faults[n - 1] then n else n - 1
  }

  /** `installGeneric`: download once, then call `unzip` until it succeeds,
      at most six times, sleeping ten seconds after every failed call;
      throw when the sixth call failed too. */
  method InstallGeneric(target: Path, src: Source)
    returns (error: Option<Exception>, unzipCalls: nat, delays: seq<int>)
    requires |src.faults| >= UnzipAttempts
    ensures !src.downloadOk ==> error == Some(IO("Could not download")) && unzipCalls == 0
    ensures src.downloadOk ==>
      (error.None? <==> AllContained(target, src.archive) && exists k :: 0 <= k < UnzipAttempts && !src.faults[k])
    ensures src.downloadOk && error.None? ==> unzipCalls == FirstClear(src.faults, UnzipAttempts) + 1
    ensures src.downloadOk && error.Some? ==>
      unzipCalls == UnzipAttempts && error == Some(IO("Could not unzip"))
    ensures !src.downloadOk ==> delays == []
    ensures src.downloadOk ==> |delays| == if error.None? then unzipCalls - 1 else unzipCalls
    ensures forall i :: 0 <= i < |delays| ==> delays[i] == RetryDelayMs
  {
    unzipCalls, delays := 0, [];
    if !src.downloadOk {
      return Some(IO("Could not download")), 0, [];
    }
    var retries := UnzipAttempts;
    var done := false;
    while retries > 0 && !done
      invariant 0 <= retries <= UnzipAttempts
      invariant unzipCalls == UnzipAttempts - retries
      invariant !done ==> forall j :: 0 <= j < unzipCalls ==> src.faults[j] || !AllContained(target, src.archive)
      invariant done ==>
        && unzipCalls >= 1 && AllContained(target, src.archive)
        && !src.faults[unzipCalls - 1]
        && forall j :: 0 <= j < unzipCalls - 1 ==> src.faults[j]
      invariant |delays| == if done then unzipCalls - 1 else unzipCalls
      invariant forall i :: 0 <= i < |delays| ==> delays[i] == RetryDelayMs
    {
      var attemptOk := false;
      if !src.faults[unzipCalls] {
        var written, failure := ExtractEntries(target, src.archive);
        attemptOk := failure.None?;
      }
      if attemptOk {
        done := true;
      } else {
        delays := delays + [RetryDelayMs];
      }
      unzipCalls := unzipCalls + 1;
      retries := retries - 1;
    }
    if !done {
      return Some(IO("Could not unzip")), unzipCalls, delays;
    }
    error := None;
  }

  /** The index of the first item satisfying `p`. */
  function FirstWhere<T>(s: seq<T>, p: T -> bool): (r: Option<nat>)
    ensures r.Some? ==> r.value < |s| && p(s[r.value]) && forall j :: 0 <= j < r.value ==> !p(s[j])
    ensures r.None? ==> forall j :: 0 <= j < |s| ==> !p(s[j])
  {
    if |s| == 0 then None
    else if p(s[0]) then Some(0)
    else
      var r := FirstWhere(s[1..], p);
      if r.None? then None else Some(r.value + 1)
  }

  const ReleaseAssetName: string := "JSettlers.zip"
  const ArtifactName: string := "Release"

  /** What an install did: the game directory it extracted into (none when
      no asset matched), the metadata record it wrote, the modification time
      it set on the directory, and the exception it ended with. */
  datatype InstallReport = InstallReport(
    target: Option<Path>,
    metadata: Option<GameVersion>,
    stamped: Option<Instant>,
    error: Option<Exception>)

  /** The report of an install that found nothing to install. */
  const NothingInstalled := InstallReport(None, None, None, None)

  /** Records the metadata, then stamps the directory with `published`;
      a missing date throws after the record is written. */
  function Finish(target: Path, record: GameVersion, published: Option<Instant>): InstallReport {
    if published.None? then InstallReport(Some(target), Some(record), None, Some(NullPointer))
    else InstallReport(Some(target), Some(record), published, None)
  }

  /** `installRelease`: the first asset named exactly `JSettlers.zip` is
      downloaded and extracted into the release's game directory; without
      such an asset the method returns without doing anything. */
  method InstallRelease(home: Path, now: Instant, release: Entry, src: Source)
    returns (report: InstallReport)
    requires release.Release?
    requires |src.faults| >= UnzipAttempts
    ensures report.target.None? <==> forall j :: 0 <= j < |release.assets| ==> release.assets[j].name != ReleaseAssetName
    ensures report.target.None? ==> report == NothingInstalled
    ensures report.target.Some? ==> report.target.value == GameDir(home, release.id)
    ensures report.metadata.Some? <==>
      report.target.Some? && src.downloadOk && AllContained(GameDir(home, release.id), src.archive)
      && exists k :: 0 <= k < UnzipAttempts && !src.faults[k]
    ensures report.metadata.Some? ==>
      var k := FirstWhere(release.assets, (a: Asset) => a.name == ReleaseAssetName).value;
      report.metadata.value == GameVersion(
        release.assets[k].browserDownloadUrl, GameDir(home, release.id), Some(now),
        release.name, release.publishedAt, "org.kohsuke.github.GHRelease")
    ensures report.error.None? && report.target.Some? ==>
      report.metadata.Some? && report.stamped == release.publishedAt
    ensures report.metadata.Some? ==>
      report.error == (if release.publishedAt.None? then Some(NullPointer) else None)
  {
    var k := FirstWhere(release.assets, (a: Asset) => a.name == ReleaseAssetName);
    if k.None? {
      return NothingInstalled;
    }
    var asset := release.assets[k.value];
    var target := GameDir(home, release.id);
    var error, calls, delays := InstallGeneric(target, src);
    if error.Some? {
      return InstallReport(Some(target), None, None, error);
    }
    var record := GameVersion(asset.browserDownloadUrl, target, Some(now), release.name,
                              release.publishedAt, "org.kohsuke.github.GHRelease");
    report := Finish(target, record, release.publishedAt);
  }

  /** The nested `JSettlers.zip` was among the extracted files. */
  predicate HasNestedZip(scratch: Path, archive: seq<ZipEntry>) {
    exists i :: 0 <= i < |archive| && !archive[i].isDirectory
      && Destination(scratch, archive[i].name) == scratch + [ReleaseAssetName]
  }

  /** The display name of an installed run: name, branch and run number. */
  function RunDisplayName(run: WorkflowRun): string {
    run.name + " " + run.headBranch + " " + IntToString(run.runNumber)
  }

  /** `installWorkflowRun`: the first artifact named exactly `Release` is
      downloaded, extracted once into a scratch directory, and the
      `JSettlers.zip` found there is extracted once into the run's game
      directory; there is no retry on this path. Without such an artifact
      the method returns without doing anything. `src.downloadOk` covers
      creating the scratch file and folder in the managed temp folder as
      well as the download itself: on a fresh home, where that folder does
      not exist yet, creating them throws, which is a failed download
      here. */
  method InstallWorkflowRun(home: Path, now: Instant, run: WorkflowRun, scratch: Path, src: Source)
    returns (report: InstallReport)
    requires |src.faults| >= 2
    ensures report.target.None? <==> forall j :: 0 <= j < |run.artifacts| ==> run.artifacts[j].name != ArtifactName
    ensures report.target.None? ==> report == NothingInstalled
    ensures report.target.Some? ==> report.target.value == GameDir(home, run.id)
    ensures report.metadata.Some? <==>
      && report.target.Some? && src.downloadOk
      && !src.faults[0] && AllContained(scratch, src.archive) && HasNestedZip(scratch, src.archive)
      && !src.faults[1] && AllContained(GameDir(home, run.id), src.nested)
    ensures report.metadata.Some? ==>
      var k := FirstWhere(run.artifacts, (a: Artifact) => a.name == ArtifactName).value;
      report.metadata.value == GameVersion(
        run.artifacts[k].archiveDownloadUrl, GameDir(home, run.id), Some(now),
        RunDisplayName(run), run.artifacts[k].updatedAt, "org.kohsuke.github.GHWorkflowRun")
    ensures report.error.None? && report.target.Some? ==>
      report.metadata.Some? && report.stamped == report.metadata.value.publishedAt
    ensures report.metadata.Some? ==>
      var k := FirstWhere(run.artifacts, (a: Artifact) => a.name == ArtifactName).value;
      report.error == (if run.artifacts[k].updatedAt.None? then Some(NullPointer) else None)
  {
    var k := FirstWhere(run.artifacts, (a: Artifact) => a.name == ArtifactName);
    if k.None? {
      return NothingInstalled;
    }
    var artifact := run.artifacts[k.value];
    var target := GameDir(home, run.id);
    if !src.downloadOk {
      return InstallReport(Some(target), None, None, Some(IO("Could not download")));
    }
    if src.faults[0] {
      return InstallReport(Some(target), None, None, Some(TransientFailure));
    }
    var written, failure := ExtractEntries(scratch, src.archive);
    if failure.Some? {
      return InstallReport(Some(target), None, None, failure);
    }
    if !HasNestedZip(scratch, src.archive) {
      return InstallReport(Some(target), None, None, Some(IO("JSettlers.zip not found")));
    }
    if src.faults[1] {
      return InstallReport(Some(target), None, None, Some(TransientFailure));
    }
    written, failure := ExtractEntries(target, src.nested);
    if failure.Some? {
      return InstallReport(Some(target), None, None, failure);
    }
    var record := GameVersion(artifact.archiveDownloadUrl, target, Some(now), RunDisplayName(run),
                              artifact.updatedAt, "org.kohsuke.github.GHWorkflowRun");
    report := Finish(target, record, artifact.updatedAt);
  }

  /** `installGame`: releases and workflow runs go to their installer, any
      other GitHub object is refused with "Unknown game type". Whatever
      the variant, an install only ever extracts into the entry's own game
      directory, and a record is written only after extraction succeeded. */
  method InstallGame(home: Path, now: Instant, e: Entry, scratch: Path, src: Source)
    returns (report: InstallReport)
    requires |src.faults| >= UnzipAttempts
    ensures e.OtherObject? ==> report == InstallReport(None, None, None, Some(Unsupported("Unknown game type")))
    ensures report.target.Some? ==> report.target.value == GameDir(home, e.Id())
    ensures report.metadata.Some? ==>
      && report.target.Some?
      && report.metadata.value.installPath == GameDir(home, e.Id())
      && report.metadata.value.installedAt == Some(now)
      && src.downloadOk
      && AllContained(GameDir(home, e.Id()), if e.Release? then src.archive else src.nested)
    ensures e.Release? ==> (report.target.None? <==>
      forall j :: 0 <= j < |e.assets| ==> e.assets[j].name != ReleaseAssetName)
    ensures e.Run? ==> (report.target.None? <==>
      forall j :: 0 <= j < |e.run.artifacts| ==> e.run.artifacts[j].name != ArtifactName)
  {
    match e
    case Release(_, _, _, _, _, _) =>
      report := InstallRelease(home, now, e, src);
    case Run(run) =>
      report := InstallWorkflowRun(home, now, run, scratch, src);
    case OtherObject(_, _, _) =>
      report := InstallReport(None, None, None, Some(Unsupported("Unknown game type")));
  }
}

=== FILE: inventory.dfy ===
/** The local inventory: the metadata record written next to every
  installed version (`GameVersion`), its date sort
  (`Util.sortGamesByDate`) and the scan of the games folder
  (`Util.getInstalledGames`).

  Reading `metadata.json` is an oracle: each directory of the games
  folder yields the parsed record or `None` when parsing threw.
 */
module Inventory {
  import opened Wrappers
  import opened Ordering
  import opened Paths
  import opened Catalog

  /** The persisted record of one installed version. */
  datatype GameVersion = GameVersion(
    downloadUrl: string,
    installPath: Path,
    installedAt: Option<Instant>,
    name: string,
    publishedAt: Option<Instant>,
    basedOn: string)

  function PublishedKey(g: GameVersion): int {
    g.publishedAt.GetOr(0)
  }

  /** The comparator dates that `sortGamesByDate` needs: every record has
      a publish date, unless the list is too short to be compared. */
  predicate ComparableGames(games: seq<GameVersion>) {
    |games| < 2 || forall i :: 0 <= i < |games| ==> games[i].publishedAt.Some?
  }

  /** `sortGamesByDate`: a sorted copy, newest publish date first, equal
      dates in their original order. */
  function SortGamesByDate(games: seq<GameVersion>): (r: seq<GameVersion>)
    requires ComparableGames(games)
    ensures StableSortOf(r, games, PublishedKey)
    ensures |games| >= 2 ==>
      forall i, j :: 0 <= i < j < |r| ==> NotOlder(r[i].publishedAt, r[j].publishedAt)
  {
    var r := SortDesc(games, PublishedKey);
    forall x | x in r ensures |games| < 2 || x.publishedAt.Some? {
      assert x in multiset(games);
    }
    r
  }

  /** The records that parsed, in directory order. */
  function Parsed(listing: seq<Option<GameVersion>>): (r: seq<GameVersion>)
    ensures |r| <= |listing|
    ensures forall g :: g in r <==> Some(g) in listing
  {
    if |listing| == 0 then []
    else
      var rest := Parsed(listing[1..]);
      assert forall o :: o in listing <==> o == listing[0] || o in listing[1..];
      (if listing[0].Some? then [listing[0].value] else []) + rest
  }

  /** `Parsed` works directory by directory: the records of a listing are
      those of its parts, in order, and each directory contributes its own
      record if it parsed and nothing otherwise. Together these fix the
      order and the multiplicity of the result. */
  lemma {:induction false} ParsedAppend(a: seq<Option<GameVersion>>, b: seq<Option<GameVersion>>)
    ensures Parsed(a + b) == Parsed(a) + Parsed(b)
    ensures Parsed([None]) == []
    ensures forall g :: Parsed([Some(g)]) == [g]
    decreases |a|
  {
    if |a| == 0 {
      assert a + b == b;
    } else {
      ParsedAppend(a[1..], b);
      assert (a + b)[1..] == a[1..] + b;
      assert (a + b)[0] == a[0];
      var h := if a[0].Some? then [a[0].value] else [];
      assert Parsed(a + b) == h + (Parsed(a[1..]) + Parsed(b));
      assert h + (Parsed(a[1..]) + Parsed(b)) == (h + Parsed(a[1..])) + Parsed(b);
    }
  }

  /** `getInstalledGames`: every directory whose metadata parsed, none whose
      metadata did not, sorted by `sortGamesByDate`; nothing when the games
      folder is not a directory. */
  function GetInstalledGames(gamesFolderIsDirectory: bool, listing: seq<Option<GameVersion>>): (r: seq<GameVersion>)
    requires gamesFolderIsDirectory ==> ComparableGames(Parsed(listing))
    ensures !gamesFolderIsDirectory ==> r == []
    ensures gamesFolderIsDirectory ==> StableSortOf(r, Parsed(listing), PublishedKey)
    ensures forall g :: g in r <==> gamesFolderIsDirectory && Some(g) in listing
  {
    if gamesFolderIsDirectory then
      var r := SortGamesByDate(Parsed(listing));
      assert forall g :: g in r <==> g in multiset(Parsed(listing));
      r
    else []
  }

  /** The first installed record carries the newest publish date. */
  lemma FirstInstalledIsNewest(gamesFolderIsDirectory: bool, listing: seq<Option<GameVersion>>)
    requires gamesFolderIsDirectory && ComparableGames(Parsed(listing))
    requires |GetInstalledGames(gamesFolderIsDirectory, listing)| > 0
    ensures forall g :: Some(g) in listing ==>
      PublishedKey(g) <= PublishedKey(GetInstalledGames(gamesFolderIsDirectory, listing)[0])
  {
    var r := GetInstalledGames(gamesFolderIsDirectory, listing);
    HeadIsMax(r, PublishedKey);
    forall g | Some(g) in listing ensures PublishedKey(g) <= PublishedKey(r[0]) {
      assert g in r;
      var j :| 0 <= j < |r| && r[j] == g;
    }
  }
}

=== FILE: layout.dfy ===
/** The managed folder layout under the user's home folder
  (`Util.get*Folder`) and the per-game directory that installing,
  removing, launching and `isInstalled` all derive from a GitHub id.

  `home/.jsettlers/managed` is the managed root; below it `game/<id>`
  holds one installed version, `temp` the downloads, `data` the game's
  data files and `var` its logs and save games.
 */
module Layout {
  import opened Text
  import opened Paths
  import opened Catalog

  /** `getManagedJSettlersFolder()`: `new File(home, ".jsettlers/managed")`. */
  function ManagedFolder(home: Path): Path {
    home + [".jsettlers", "managed"]
  }

  function TempFolder(home: Path): Path {
    ManagedFolder(home) + ["temp"]
  }

  function DataFolder(home: Path): Path {
    ManagedFolder(home) + ["data"]
  }

  function GamesFolder(home: Path): Path {
    ManagedFolder(home) + ["game"]
  }

  function VarFolder(home: Path): Path {
    ManagedFolder(home) + ["var"]
  }

  function LogsFolder(home: Path): Path {
    VarFolder(home) + ["logs"]
  }

  /** `new File(getGamesFolder(), String.valueOf(id))`: the directory of the
      installed version with GitHub id `id`. */
  function GameDir(home: Path, id: int): Path {
    GamesFolder(home) + [IntToString(id)]
  }

  /** `isInstalled`: the entry's game directory exists. */
  predicate IsInstalled(directories: set<Path>, home: Path, e: Entry) {
    GameDir(home, e.Id()) in directories
  }

  /** `execGameJar(GHObject, jar)`: the jar inside the entry's game directory. */
  function LaunchJar(home: Path, e: Entry, jar: string): Path {
    Child(GameDir(home, e.Id()), jar)
  }

  /** Game directories identify their id: two ids share a directory only
      when they are the same id, and deriving the directory again gives
      the same path. */
  lemma GameDirIdentifiesId(home: Path, a: int, b: int)
    ensures GameDir(home, a) == GameDir(home, b) <==> a == b
  {
    if GameDir(home, a) == GameDir(home, b) {
      assert GameDir(home, a)[|GamesFolder(home)|] == IntToString(a);
      assert GameDir(home, b)[|GamesFolder(home)|] == IntToString(b);
      IntToStringInjective(a, b);
    }
  }

  /** A game directory is a normal path directly inside the games folder,
      and never inside the temp, data or var folders. */
  lemma GameDirPlacement(home: Path, id: int)
    requires IsNormal(home)
    ensures IsNormal(GameDir(home, id))
    ensures StartsWith(GameDir(home, id), GamesFolder(home))
    ensures |GameDir(home, id)| == |GamesFolder(home)| + 1
    ensures !StartsWith(GameDir(home, id), TempFolder(home))
    ensures !StartsWith(GameDir(home, id), DataFolder(home))
    ensures !StartsWith(GameDir(home, id), VarFolder(home))
  {
    var g := GameDir(home, id);
    var n := |ManagedFolder(home)|;
    assert g[n] == "game";
    assert TempFolder(home)[n] == "temp";
    assert DataFolder(home)[n] == "data";
    assert VarFolder(home)[n] == "var";
    assert g[..|GamesFolder(home)|] == GamesFolder(home);
  }

  /** Creating one entry's game directory marks exactly the entries with
      that id as installed and leaves every other answer unchanged. */
  lemma CreatingGameDirInstallsThatId(directories: set<Path>, home: Path, e: Entry, other: Entry)
    ensures IsInstalled(directories + {GameDir(home, e.Id())}, home, other)
        <==> IsInstalled(directories, home, other) || other.Id() == e.Id()
  {
    GameDirIdentifiesId(home, e.Id(), other.Id());
  }

  /** Removing an entry's game directory (as `removeRelease` does) marks
      exactly the entries with that id as not installed and leaves every
      other answer unchanged. */
  lemma RemovingGameDirUninstallsThatId(directories: set<Path>, home: Path, e: Entry, other: Entry)
    ensures IsInstalled(directories - {GameDir(home, e.Id())}, home, other)
        <==> IsInstalled(directories, home, other) && other.Id() != e.Id()
  {
    GameDirIdentifiesId(home, e.Id(), other.Id());
  }

  /** The jar launched for an entry is the game directory followed by the
      jar's components. When the home folder is normal and the jar name has
      no empty, `.` or `..` component, normalising the path changes nothing,
      so the file opened lies strictly inside the directory that
      `isInstalled` checks for that entry. */
  lemma LaunchJarInsideGameDir(home: Path, e: Entry, jar: string)
    ensures StartsWith(LaunchJar(home, e, jar), GameDir(home, e.Id()))
    ensures |LaunchJar(home, e, jar)| > |GameDir(home, e.Id())|
    ensures IsNormal(home) && IsNormal(Components(jar)) ==>
      var p := Normalize(LaunchJar(home, e, jar));
      && p == LaunchJar(home, e, jar)
      && StartsWith(p, GameDir(home, e.Id()))
      && |p| > |GameDir(home, e.Id())|
  {
    var dir := GameDir(home, e.Id());
    var p := LaunchJar(home, e, jar);
    assert p[..|dir|] == dir;
    if IsNormal(home) && IsNormal(Components(jar)) {
      GameDirPlacement(home, e.Id());
      assert IsNormal(p) by {
        forall i | 0 <= i < |p| ensures IsName(p[i]) {
          if i >= |dir| {
            assert p[i] == Components(jar)[i - |dir|];
          }
        }
      }
      ResolveNormal([], p);
      assert [] + p == p;
    }
  }

  /** Without that restriction the launched path can leave the game
      directory: the jar `..` resolves to the games folder itself. */
  lemma ParentJarLeavesGameDir(home: Path, e: Entry)
    requires IsNormal(home)
    ensures Normalize(LaunchJar(home, e, "..")) == GamesFolder(home)
    ensures !StartsWith(Normalize(LaunchJar(home, e, "..")), GameDir(home, e.Id()))
  {
    var dir := GameDir(home, e.Id());
    GameDirPlacement(home, e.Id());
    assert Components("..") == [".."];
    NormalizeChild(dir, "..");
    assert Resolve(dir, [".."]) == Resolve(GamesFolder(home), []);
  }
}

=== FILE: ordering.dfy ===
/** Stable sorting by a descending integer key.

  `Collections.sort` is a stable sort, and each date comparator of the
  installer orders by one timestamp, newest first. While every compared
  item carries its timestamp, all of these sorts are therefore the one
  stable descending sort on that key, which this module defines (as an
  insertion sort) and characterises:

  - the result is a permutation of the input,
  - it is non-increasing in the key,
  - items with equal keys keep their input order,

  and these three properties single out the result (`StableSortUnique`),
  so any stable sort — the library's merge sort included — returns it.
 */
module Ordering {

  /** Non-increasing in `key` at every pair of positions. */
  ghost predicate SortedDesc<T>(s: seq<T>, key: T -> int) {
    forall i, j :: 0 <= i < j < |s| ==> key(s[i]) >= key(s[j])
  }

  /** The items of `s` whose key is `k`, in their order in `s`. */
  function WithKey<T>(s: seq<T>, key: T -> int, k: int): seq<T>
  {
    if |s| == 0 then []
    else (if key(s[0]) == k then [s[0]] else []) + WithKey(s[1..], key, k)
  }

  /** `r` is `s` sorted newest first, and equal keys keep their order. */
  ghost predicate StableSortOf<T>(r: seq<T>, s: seq<T>, key: T -> int) {
    && multiset(r) == multiset(s)
    && SortedDesc(r, key)
    && forall k :: WithKey(r, key, k) == WithKey(s, key, k)
  }

  /** Places `x` before the first item of `s` whose key is not larger. */
  function Insert<T>(x: T, s: seq<T>, key: T -> int): seq<T>
  {
    if |s| == 0 || key(x) >= key(s[0]) then [x] + s
    else [s[0]] + Insert(x, s[1..], key)
  }

  /** The stable descending sort of `s` by `key`. */
  function SortDesc<T>(s: seq<T>, key: T -> int): (r: seq<T>)
    ensures StableSortOf(r, s, key)
  {
    if |s| == 0 then []
    else
      var t := SortDesc(s[1..], key);
      InsertPermutes(s[0], t, key);
      InsertSorted(s[0], t, key);
      InsertStable(s[0], t, key);
      assert s == [s[0]] + s[1..];
      forall k ensures WithKey(Insert(s[0], t, key), key, k) == WithKey(s, key, k) {
        assert WithKey([s[0]] + t, key, k) == WithKey([s[0]] + s[1..], key, k) by {
          assert ([s[0]] + t)[1..] == t;
          assert ([s[0]] + s[1..])[1..] == s[1..];
        }
      }
      Insert(s[0], t, key)
  }

  lemma {:induction false} InsertPermutes<T>(x: T, s: seq<T>, key: T -> int)
    ensures multiset(Insert(x, s, key)) == multiset([x] + s)
    decreases |s|
  {
    if |s| > 0 && key(x) < key(s[0]) {
      InsertPermutes(x, s[1..], key);
      assert s == [s[0]] + s[1..];
    }
  }

  /** Putting an item with a key no smaller than all others in front of a
      sorted sequence keeps it sorted. */
  lemma SortedCons<T>(h: T, rest: seq<T>, key: T -> int)
    requires SortedDesc(rest, key)
    requires forall j :: 0 <= j < |rest| ==> key(h) >= key(rest[j])
    ensures SortedDesc([h] + rest, key)
  {
    var r := [h] + rest;
    forall i, j | 0 <= i < j < |r| ensures key(r[i]) >= key(r[j]) {
      assert r[j] == rest[j - 1];
      if i > 0 {
        assert r[i] == rest[i - 1];
      }
    }
  }

  /** Every item of an insertion result is `x` or an item of `s`. */
  lemma InsertBound<T>(x: T, s: seq<T>, key: T -> int, bound: int)
    requires key(x) <= bound
    requires forall j :: 0 <= j < |s| ==> key(s[j]) <= bound
    ensures forall j :: 0 <= j < |Insert(x, s, key)| ==> key(Insert(x, s, key)[j]) <= bound
  {
    var r := Insert(x, s, key);
    InsertPermutes(x, s, key);
    forall j | 0 <= j < |r| ensures key(r[j]) <= bound {
      assert r[j] in multiset([x] + s);
      assert r[j] == x || r[j] in s;
    }
  }

  lemma {:induction false} InsertSorted<T>(x: T, s: seq<T>, key: T -> int)
    requires SortedDesc(s, key)
    ensures SortedDesc(Insert(x, s, key), key)
    decreases |s|
  {
    if |s| > 0 && key(x) < key(s[0]) {
      InsertSorted(x, s[1..], key);
      InsertBound(x, s[1..], key, key(s[0]));
      SortedCons(s[0], Insert(x, s[1..], key), key);
    } else if |s| > 0 {
      SortedCons(x, s, key);
    }
  }

  lemma {:induction false} WithKeyAppend<T>(a: seq<T>, b: seq<T>, key: T -> int, k: int)
    ensures WithKey(a + b, key, k) == WithKey(a, key, k) + WithKey(b, key, k)
    decreases |a|
  {
    if |a| > 0 {
      assert (a + b)[1..] == a[1..] + b;
      WithKeyAppend(a[1..], b, key, k);
    } else {
      assert a + b == b;
    }
  }

  /** Insertion only moves `x` past items with a different key. */
  lemma {:induction false} InsertStable<T>(x: T, s: seq<T>, key: T -> int)
    ensures forall k :: WithKey(Insert(x, s, key), key, k) == WithKey([x] + s, key, k)
    decreases |s|
  {
    if |s| > 0 && key(x) < key(s[0]) {
      InsertStable(x, s[1..], key);
      forall k ensures WithKey(Insert(x, s, key), key, k) == WithKey([x] + s, key, k) {
        var rest := Insert(x, s[1..], key);
        calc {
          WithKey(Insert(x, s, key), key, k);
          { WithKeyAppend([s[0]], rest, key, k); }
          WithKey([s[0]], key, k) + WithKey(rest, key, k);
          WithKey([s[0]], key, k) + WithKey([x] + s[1..], key, k);
          { WithKeyAppend([x], s[1..], key, k); }
          WithKey([s[0]], key, k) + WithKey([x], key, k) + WithKey(s[1..], key, k);
          WithKey([x], key, k) + WithKey([s[0]], key, k) + WithKey(s[1..], key, k);
          { WithKeyAppend([s[0]], s[1..], key, k); assert [s[0]] + s[1..] == s; }
          WithKey([x], key, k) + WithKey(s, key, k);
          { WithKeyAppend([x], s, key, k); }
          WithKey([x] + s, key, k);
        }
      }
    }
  }

  /** Every item of `s` appears among the items with its own key. */
  lemma {:induction false} InWithKey<T>(s: seq<T>, key: T -> int, i: int)
    requires 0 <= i < |s|
    ensures s[i] in WithKey(s, key, key(s[i]))
    decreases |s|
  {
    if i > 0 {
      InWithKey(s[1..], key, i - 1);
    }
  }

  /** Items listed under key `k` have key `k`. */
  lemma {:induction false} WithKeyHasKey<T>(s: seq<T>, key: T -> int, k: int, x: T)
    requires x in WithKey(s, key, k)
    ensures key(x) == k && x in s
    decreases |s|
  {
    if |s| > 0 {
      var head := if key(s[0]) == k then [s[0]] else [];
      assert WithKey(s, key, k) == head + WithKey(s[1..], key, k);
      if x !in head {
        WithKeyHasKey(s[1..], key, k, x);
      }
    }
  }

  /** In two sorted sequences listing the same items per key, the first
      item of `a` has a key no larger than the first item of `b`. */
  lemma HeadKeyBound<T>(a: seq<T>, b: seq<T>, key: T -> int)
    requires |a| > 0 && SortedDesc(b, key)
    requires forall k :: WithKey(a, key, k) == WithKey(b, key, k)
    ensures |b| > 0 && key(a[0]) <= key(b[0])
  {
    InWithKey(a, key, 0);
    assert a[0] in WithKey(b, key, key(a[0]));
    WithKeyHasKey(b, key, key(a[0]), a[0]);
    var j :| 0 <= j < |b| && b[j] == a[0];
    if j > 0 {
      assert key(b[0]) >= key(b[j]);
    }
  }

  /** Two sorted sequences listing the same items per key start alike. */
  lemma HeadsEqual<T>(a: seq<T>, b: seq<T>, key: T -> int)
    requires |a| > 0 && SortedDesc(a, key) && SortedDesc(b, key)
    requires forall k :: WithKey(a, key, k) == WithKey(b, key, k)
    ensures |b| > 0 && a[0] == b[0]
  {
    HeadKeyBound(a, b, key);
    HeadKeyBound(b, a, key);
    var ka := key(a[0]);
    assert WithKey(a, key, ka) == [a[0]] + WithKey(a[1..], key, ka);
    assert WithKey(b, key, ka) == [b[0]] + WithKey(b[1..], key, ka);
    assert WithKey(a, key, ka)[0] == a[0];
  }

  /** Equal heads drop out of the per-key lists. */
  lemma TailsWithKey<T>(a: seq<T>, b: seq<T>, key: T -> int)
    requires |a| > 0 && |b| > 0 && a[0] == b[0]
    requires forall k :: WithKey(a, key, k) == WithKey(b, key, k)
    ensures forall k :: WithKey(a[1..], key, k) == WithKey(b[1..], key, k)
  {
    forall k ensures WithKey(a[1..], key, k) == WithKey(b[1..], key, k) {
      var head := if key(a[0]) == k then [a[0]] else [];
      assert WithKey(a, key, k) == head + WithKey(a[1..], key, k);
      assert WithKey(b, key, k) == head + WithKey(b[1..], key, k);
      assert WithKey(a[1..], key, k) == WithKey(a, key, k)[|head|..];
      assert WithKey(b[1..], key, k) == WithKey(b, key, k)[|head|..];
    }
  }

  /** Two sequences that are both sorted and list the same items for every
      key, in the same order, are equal: a stable descending sort has
      exactly one possible result. */
  lemma {:induction false} StableSortUnique<T>(a: seq<T>, b: seq<T>, key: T -> int)
    requires SortedDesc(a, key) && SortedDesc(b, key)
    requires forall k :: WithKey(a, key, k) == WithKey(b, key, k)
    ensures a == b
    decreases |a|
  {
    if |a| == 0 {
      if |b| > 0 {
        HeadsEqual(b, a, key);
      }
    } else {
      HeadsEqual(a, b, key);
      TailsWithKey(a, b, key);
      StableSortUnique(a[1..], b[1..], key);
      assert a == [a[0]] + a[1..] && b == [b[0]] + b[1..];
    }
  }

  /** The first item of a sorted, non-empty sequence has the largest key. */
  lemma HeadIsMax<T>(s: seq<T>, key: T -> int)
    requires SortedDesc(s, key) && |s| > 0
    ensures forall j :: 0 <= j < |s| ==> key(s[j]) <= key(s[0])
  {
    forall j | 0 < j < |s| ensures key(s[j]) <= key(s[0]) {
      assert key(s[0]) >= key(s[j]);
    }
  }

  /** `a` is `b` with some elements left out and the rest kept in order. */
  predicate Subsequence<T(==)>(a: seq<T>, b: seq<T>)
    decreases |b|
  {
    |a| == 0 || (|b| > 0 && ((a[0] == b[0] && Subsequence(a[1..], b[1..])) || Subsequence(a, b[1..])))
  }

  lemma {:induction false} SubsequenceRefl<T>(a: seq<T>)
    ensures Subsequence(a, a)
    decreases |a|
  {
    if |a| > 0 {
      SubsequenceRefl(a[1..]);
    }
  }

  lemma {:induction false} SubsequenceAppend<T>(a1: seq<T>, b1: seq<T>, a2: seq<T>, b2: seq<T>)
    requires Subsequence(a1, b1) && Subsequence(a2, b2)
    ensures Subsequence(a1 + a2, b1 + b2)
    decreases |b1|
  {
    if |b1| == 0 {
      assert a1 + a2 == a2 && b1 + b2 == b2;
    } else if |a1| > 0 && a1[0] == b1[0] && Subsequence(a1[1..], b1[1..]) {
      SubsequenceAppend(a1[1..], b1[1..], a2, b2);
      assert (a1 + a2)[0] == (b1 + b2)[0];
      assert (a1 + a2)[1..] == a1[1..] + a2 && (b1 + b2)[1..] == b1[1..] + b2;
    } else {
      SubsequenceAppend(a1, b1[1..], a2, b2);
      assert (b1 + b2)[1..] == b1[1..] + b2;
    }
  }

  lemma AppendAssoc<T>(a: seq<T>, b: seq<T>, c: seq<T>)
    ensures a + (b + c) == (a + b) + c
  {
  }

  /** A sequence that extends `b`, which extends `a`, extends `a` by both
      stretches. */
  lemma ExtendsChain<T>(a: seq<T>, b: seq<T>, c: seq<T>)
    requires |a| <= |b| <= |c| && c[..|b|] == b && b[..|a|] == a
    ensures c[..|a|] == a
    ensures c[|a|..] == b[|a|..] + c[|b|..]
  {
    assert c[..|a|] == c[..|b|][..|a|];
  }
}

=== FILE: paths.dfy ===
/** Filesystem paths as sequences of components, and the two
  `java.nio.file.Path` operations the zip-slip guard relies on:
  `normalize()` and `startsWith(Path)`.

  Paths are absolute (they all hang off the user's home folder), so a
  `..` at the root resolves to the root itself, as it does for an
  absolute `UnixPath`. `java.io.File` collapses repeated and trailing
  separators, so an empty component never survives into a path; the model
  drops it during normalisation.
 */
module Paths {
  import opened Text

  /** Components from the filesystem root down. */
  type Path = seq<string>

  /** A component that names a directory entry rather than `.`/`..`. */
  predicate IsName(c: string) {
    c != "" && c != "." && c != ".."
  }

  /** A path in which every component is a name. */
  predicate IsNormal(p: Path) {
    forall i :: 0 <= i < |p| ==> IsName(p[i])
  }

  /** Resolves the components of `rest` against the already normal `base`:
      `.` and empty components are dropped, `..` removes the last
      component (if any) and a name is appended. */
  function Resolve(base: Path, rest: Path): (r: Path)
    requires IsNormal(base)
    ensures IsNormal(r)
    decreases |rest|
  {
    if |rest| == 0 then base
    else if rest[0] == "" || rest[0] == "." then Resolve(base, rest[1..])
    else if rest[0] == ".." then Resolve(if |base| == 0 then base else base[..|base| - 1], rest[1..])
    else Resolve(base + [rest[0]], rest[1..])
  }

  /** `Path.normalize()` of an absolute path. */
  function Normalize(p: Path): (r: Path)
    ensures IsNormal(r)
  {
    Resolve([], p)
  }

  /** `Path.startsWith(Path)`: component-wise prefix. */
  predicate StartsWith(p: Path, prefix: Path) {
    |prefix| <= |p| && p[..|prefix|] == prefix
  }

  /** The components `java.io.File` makes of a relative name on Unix. */
  function Components(name: string): Path {
    SplitOn(name, {'/'})
  }

  /** A `/` after a separator-free prefix ends the first component. */
  lemma ComponentsAfterFirstSlash(a: string, b: string)
    requires forall k :: 0 <= k < |a| ==> a[k] != '/'
    ensures Components(a + "/" + b) == [a] + Components(b)
  {
    SplitAfterFirst(a, '/', b);
  }

  /** `new File(dir, name)`. */
  function Child(dir: Path, name: string): Path {
    dir + Components(name)
  }

  /** Resolving a normal path changes nothing. */
  lemma {:induction false} ResolveNormal(base: Path, rest: Path)
    requires IsNormal(base) && IsNormal(rest)
    ensures Resolve(base, rest) == base + rest
    decreases |rest|
  {
    if |rest| > 0 {
      ResolveNormal(base + [rest[0]], rest[1..]);
      assert base + [rest[0]] + rest[1..] == base + rest;
    }
  }

  /** Normalising is the identity on normal paths, so it is idempotent. */
  lemma NormalizeIdempotent(p: Path)
    ensures Normalize(Normalize(p)) == Normalize(p)
    ensures IsNormal(p) ==> Normalize(p) == p
  {
    ResolveNormal([], Normalize(p));
    if IsNormal(p) {
      ResolveNormal([], p);
    }
  }

  /** Resolution proceeds left to right: resolving `a + b` is resolving
      `b` against the resolution of `a`. */
  lemma {:induction false} ResolveAppend(base: Path, a: Path, b: Path)
    requires IsNormal(base)
    ensures Resolve(base, a + b) == Resolve(Resolve(base, a), b)
    decreases |a|
  {
    if |a| > 0 {
      assert (a + b)[0] == a[0];
      assert (a + b)[1..] == a[1..] + b;
      if a[0] == "" || a[0] == "." {
        ResolveAppend(base, a[1..], b);
      } else if a[0] == ".." {
        ResolveAppend(if |base| == 0 then base else base[..|base| - 1], a[1..], b);
      } else {
        ResolveAppend(base + [a[0]], a[1..], b);
      }
    } else {
      assert a + b == b;
    }
  }

  /** Without `..` components, resolution only ever appends to `base`. */
  lemma {:induction false} ResolveWithoutParentKeepsBase(base: Path, rest: Path)
    requires IsNormal(base)
    requires forall i :: 0 <= i < |rest| ==> rest[i] != ".."
    ensures StartsWith(Resolve(base, rest), base)
    decreases |rest|
  {
    if |rest| > 0 {
      if rest[0] == "" || rest[0] == "." {
        ResolveWithoutParentKeepsBase(base, rest[1..]);
      } else {
        ResolveWithoutParentKeepsBase(base + [rest[0]], rest[1..]);
        var r := Resolve(base + [rest[0]], rest[1..]);
        assert r[..|base|] == r[..|base| + 1][..|base|];
      }
    }
  }

  /** Normalising a child of a normal directory resolves the child's name
      against that directory. */
  lemma NormalizeChild(dir: Path, name: string)
    requires IsNormal(dir)
    ensures Normalize(Child(dir, name)) == Resolve(dir, Components(name))
  {
    ResolveAppend([], dir, Components(name));
    ResolveNormal([], dir);
    assert [] + dir == dir;
  }
}

=== FILE: probes.dfy ===
/** Two text parsers over command output: the Linux CD mount point scan
  of `/proc/mounts` (`Util.getCdMountPointLinux`) and the `name: value`
  parser of `xwininfo` output (`Util.getUnixWindowProperties`).
 */
module Probes {
  import opened Wrappers
  import opened Text

  /** The line separators the mount scan splits on. */
  const LineBreaks: set<char> := {'\n', '\r'}

  /** The index of the first line mentioning `iso9660` in any letter case. */
  function FirstIsoLine(lines: seq<string>): (r: Option<nat>)
    ensures r.Some? ==> r.value < |lines| && Contains(Lower(lines[r.value]), "iso9660")
    ensures r.Some? ==> forall j :: 0 <= j < r.value ==> !Contains(Lower(lines[j]), "iso9660")
    ensures r.None? ==> forall j :: 0 <= j < |lines| ==> !Contains(Lower(lines[j]), "iso9660")
  {
    if |lines| == 0 then None
    else if Contains(Lower(lines[0]), "iso9660") then Some(0)
    else
      var r := FirstIsoLine(lines[1..]);
      if r.None? then None else Some(r.value + 1)
  }

  /** `getCdMountPointLinux`: the second whitespace-separated field of the
      first `iso9660` line. `mounts` is `None` when the file cannot be
      read; a matching line with fewer than two fields makes the tokenizer
      throw, which the method catches, so it yields `None` as well. */
  function CdMountPointLinux(mounts: Option<string>): (r: Option<string>)
    ensures mounts.None? ==> r.None?
    ensures r.Some? ==>
      var lines := SplitOn(mounts.value, LineBreaks);
      exists i :: 0 <= i < |lines| && Contains(Lower(lines[i]), "iso9660")
        && (forall j :: 0 <= j < i ==> !Contains(Lower(lines[j]), "iso9660"))
        && |Tokens(lines[i], Whitespace)| >= 2 && r.value == Tokens(lines[i], Whitespace)[1]
    ensures mounts.Some? && r.None? ==>
      var lines := SplitOn(mounts.value, LineBreaks);
      forall i :: 0 <= i < |lines| && Contains(Lower(lines[i]), "iso9660") ==>
        |Tokens(lines[i], Whitespace)| < 2 || exists j :: 0 <= j < i && Contains(Lower(lines[j]), "iso9660")
  {
    if mounts.None? then None
    else
      var lines := SplitOn(mounts.value, LineBreaks);
      var k := FirstIsoLine(lines);
      if k.None? then None
      else
        var i := k.value;
        var fields := Tokens(lines[i], Whitespace);
        if |fields| < 2 then
          assert forall j :: 0 <= j < |lines| && Contains(Lower(lines[j]), "iso9660") && j != i ==> j > i;
          None
        else
          Some(fields[1])
  }

  /** One `xwininfo` line: trimmed and split at `:`; exactly two parts
      give a property, both halves trimmed. */
  function ParseLine(line: string): Option<(string, string)> {
    var parts := JavaSplit(Trim(line), ':');
    if |parts| == 2 then Some((Trim(parts[0]), Trim(parts[1]))) else None
  }

  /** `pair` defines the property named `k`. */
  predicate Names(pair: Option<(string, string)>, k: string) {
    pair.Some? && pair.value.0 == k
  }

  /** `Properties.setProperty` over parsed lines: later pairs override
      earlier ones. */
  function Collect(pairs: seq<Option<(string, string)>>): (r: map<string, string>)
    ensures forall k :: k in r <==> exists i :: 0 <= i < |pairs| && Names(pairs[i], k)
    decreases |pairs|
  {
    if |pairs| == 0 then map[]
    else
      var n := |pairs| - 1;
      var init := pairs[..n];
      var before := Collect(init);
      var r := if pairs[n].Some? then before[pairs[n].value.0 := pairs[n].value.1] else before;
      forall k ensures k in r <==> exists i :: 0 <= i < |pairs| && Names(pairs[i], k) {
        if k in before {
          var i :| 0 <= i < |init| && Names(init[i], k);
          assert init[i] == pairs[i];
        }
        if exists i :: 0 <= i < |pairs| && Names(pairs[i], k) {
          var i :| 0 <= i < |pairs| && Names(pairs[i], k);
          if i < n {
            assert init[i] == pairs[i];
          }
        }
      }
      r
  }

  /** The value stored for a name is that of the last pair defining it. */
  lemma {:induction false} LastPairWins(pairs: seq<Option<(string, string)>>, i: nat)
    requires i < |pairs| && pairs[i].Some?
    requires forall j :: i < j < |pairs| ==> !Names(pairs[j], pairs[i].value.0)
    ensures Collect(pairs)[pairs[i].value.0] == pairs[i].value.1
    decreases |pairs|
  {
    if i < |pairs| - 1 {
      var init := pairs[..|pairs| - 1];
      assert init[i] == pairs[i];
      forall j | i < j < |init| ensures !Names(init[j], init[i].value.0) {
        assert init[j] == pairs[j];
      }
      LastPairWins(init, i);
    }
  }

  function ParseLines(lines: seq<string>): (r: seq<Option<(string, string)>>)
    ensures |r| == |lines| && forall i :: 0 <= i < |lines| ==> r[i] == ParseLine(lines[i])
  {
    if |lines| == 0 then [] else [ParseLine(lines[0])] + ParseLines(lines[1..])
  }

  /** The properties of `lines`. */
  function Properties(lines: seq<string>): map<string, string> {
    Collect(ParseLines(lines))
  }

  /** A name is defined exactly when some line parses to it. */
  lemma PropertiesDefined(lines: seq<string>, k: string)
    ensures k in Properties(lines) <==> exists i :: 0 <= i < |lines| && Names(ParseLine(lines[i]), k)
  {
    var pairs := ParseLines(lines);
    if k in Properties(lines) {
      var i :| 0 <= i < |pairs| && Names(pairs[i], k);
      assert Names(ParseLine(lines[i]), k);
    } else {
      forall i | 0 <= i < |lines| ensures !Names(ParseLine(lines[i]), k) {
        assert pairs[i] == ParseLine(lines[i]);
      }
    }
  }

  /** `getUnixWindowProperties`: the properties of the non-empty lines of
      the `xwininfo` output. */
  function WindowProperties(output: string): map<string, string> {
    Properties(Tokens(output, {'\n'}))
  }

  /** A window property is defined exactly when some non-empty line of the
      `xwininfo` output parses to that name. */
  lemma WindowPropertiesDefined(output: string, k: string)
    ensures var lines := Tokens(output, {'\n'});
      && (k in WindowProperties(output) <==> exists i :: 0 <= i < |lines| && Names(ParseLine(lines[i]), k))
      && forall i :: 0 <= i < |lines| ==> lines[i] != "" && '\n' !in lines[i]
  {
    var lines := Tokens(output, {'\n'});
    PropertiesDefined(lines, k);
  }

  /** The value stored for a name is that of the last line defining it. */
  lemma LastLineWins(lines: seq<string>, i: nat)
    requires i < |lines| && ParseLine(lines[i]).Some?
    requires forall j :: i < j < |lines| ==> !Names(ParseLine(lines[j]), ParseLine(lines[i]).value.0)
    ensures Properties(lines)[ParseLine(lines[i]).value.0] == ParseLine(lines[i]).value.1
  {
    var pairs := ParseLines(lines);
    LastPairWins(pairs, i);
  }
}

=== FILE: ratelimit.dfy ===
/** The rate-limit checker installed into the GitHub client
  (`App.java`, `RateLimitChecker.checkRateLimit`): with fewer than ten
  requests left it asks the client to stop, with fewer than a hundred it
  slows every request down, the more the fewer remain.
 */
module RateLimit {
  const BailBelow: int := 10
  const ThrottleBelow: int := 100

  /** What one check does: whether it bails out (returns `true`) and how
      many milliseconds it sleeps first. */
  datatype Check = Check(bail: bool, sleepMs: int)

  function CheckRateLimit(remaining: int): (c: Check)
    ensures c.bail <==> remaining < BailBelow
    ensures c.bail ==> c.sleepMs == 0
    ensures c.sleepMs > 0 <==> BailBelow <= remaining < ThrottleBelow
    ensures BailBelow <= remaining < ThrottleBelow ==> 10 <= c.sleepMs <= 900
    ensures remaining >= ThrottleBelow ==> c == Check(false, 0)
  {
    if remaining < BailBelow then Check(true, 0)
    else if remaining < ThrottleBelow then Check(false, 1000 - 10 * remaining)
    else Check(false, 0)
  }

  /** Within the throttled band every request fewer left costs exactly ten
      milliseconds more sleep. */
  lemma ThrottleStrictlyDecreasing(a: int, b: int)
    requires BailBelow <= a < b < ThrottleBelow
    ensures CheckRateLimit(a).sleepMs > CheckRateLimit(b).sleepMs
    ensures CheckRateLimit(a).sleepMs - CheckRateLimit(b).sleepMs == 10 * (b - a)
  {
  }

  /** The sleep never grows as the quota grows, across all three bands
      except the jump from bailing (no sleep) to the longest throttle. */
  lemma ThrottleMonotone(a: int, b: int)
    requires BailBelow <= a <= b
    ensures CheckRateLimit(a).sleepMs >= CheckRateLimit(b).sleepMs
  {
  }
}

=== FILE: text.dfy ===
/** String helpers with the semantics of the Java library calls the
  installer makes: `String.valueOf(long)`, `toLowerCase`, `contains`,
  `trim`, `split` and `StringTokenizer`.

  Strings are `seq<char>`; lower-casing is ASCII only.
 */
module Text {

  // ----- decimal rendering: String.valueOf(long) -----

  function DigitChar(d: nat): char
    requires d < 10
  {
    "0123456789"[d]
  }

  predicate IsDigit(c: char) {
    '0' <= c <= '9'
  }

  /** The value of a string of decimal digits, most significant first. */
  function DecimalValue(s: string): nat
    requires forall i :: 0 <= i < |s| ==> IsDigit(s[i])
  {
    if |s| == 0 then 0
    else
      assert IsDigit(s[|s| - 1]);
      DecimalValue(s[..|s| - 1]) * 10 + (s[|s| - 1] as int - '0' as int)
  }

  /** Decimal digits of `n`, without leading zeros; reading them back gives `n`. */
  function NatToString(n: nat): (r: string)
    ensures |r| >= 1
    ensures forall i :: 0 <= i < |r| ==> IsDigit(r[i])
    ensures DecimalValue(r) == n
  {
    if n < 10 then [DigitChar(n)]
    else
      var prefix := NatToString(n / 10);
      var r := prefix + [DigitChar(n % 10)];
      assert r[..|r| - 1] == prefix;
      r
  }

  /** The value of `String.valueOf` output: an optional minus sign, then digits. */
  function SignedValue(s: string): int
  {
    if |s| > 0 && s[0] == '-' && (forall i :: 1 <= i < |s| ==> IsDigit(s[i])) then
      -(DecimalValue(s[1..]) as int)
    else if forall i :: 0 <= i < |s| ==> IsDigit(s[i]) then
      DecimalValue(s)
    else 0
  }

  /** `String.valueOf(long)`: the decimal text of `i`, which reads back as `i`. */
  function IntToString(i: int): (r: string)
    ensures SignedValue(r) == i
    ensures |r| >= 1 && r != "." && r != ".."
    ensures forall k :: 0 <= k < |r| ==> r[k] == '-' || IsDigit(r[k])
  {
    if i < 0 then
      var r := "-" + NatToString(-i);
      assert r[1..] == NatToString(-i);
      r
    else NatToString(i)
  }

  /** Distinct numbers render as distinct strings. */
  lemma IntToStringInjective(a: int, b: int)
    ensures IntToString(a) == IntToString(b) <==> a == b
  {
    if IntToString(a) == IntToString(b) {
      assert SignedValue(IntToString(a)) == SignedValue(IntToString(b));
    }
  }

  // ----- case and substrings -----

  function LowerChar(c: char): char {
    if 'A' <= c <= 'Z' then (c as int - 'A' as int + 'a' as int) as char else c
  }

  /** `toLowerCase`, restricted to ASCII letters. */
  function Lower(s: string): (r: string)
    ensures |r| == |s|
    ensures forall i :: 0 <= i < |s| ==> r[i] == LowerChar(s[i])
  {
    seq(|s|, i requires 0 <= i < |s| => LowerChar(s[i]))
  }

  /** `p` occurs in `s` starting at index `i`. */
  predicate OccursAt(s: string, p: string, i: int) {
    0 <= i <= |s| - |p| && s[i..i + |p|] == p
  }

  /** `s.contains(p)`. */
  predicate Contains(s: string, p: string) {
    exists i :: 0 <= i <= |s| && OccursAt(s, p, i)
  }

  // ----- splitting -----

  /** The fields of `s` between occurrences of any separator, empty fields
      included: there is always one more field than separators. */
  function SplitOn(s: string, seps: set<char>): (r: seq<string>)
    ensures |r| >= 1
    ensures forall i, j :: 0 <= i < |r| && 0 <= j < |r[i]| ==> r[i][j] !in seps
    ensures (forall k :: 0 <= k < |s| ==> s[k] !in seps) ==> r == [s]
    decreases |s|
  {
    if |s| == 0 then [""]
    else
      var rest := SplitOn(s[1..], seps);
      assert s == [s[0]] + s[1..];
      if s[0] in seps then [""] + rest
      else [[s[0]] + rest[0]] + rest[1..]
  }

  /** The fields joined with `c` between neighbours. */
  function Join(fields: seq<string>, c: char): string
    requires |fields| >= 1
  {
    if |fields| == 1 then fields[0] else fields[0] + [c] + Join(fields[1..], c)
  }

  /** Prefixing the first field prefixes the joined string. */
  lemma JoinPrepend(x: string, fields: seq<string>, c: char)
    requires |fields| >= 1
    ensures Join([x + fields[0]] + fields[1..], c) == x + Join(fields, c)
  {
    var r := [x + fields[0]] + fields[1..];
    assert r[1..] == fields[1..];
  }

  /** Splitting at one separator loses nothing: joining the fields with it
      gives back the input. */
  lemma {:induction false} SplitJoin(s: string, c: char)
    ensures Join(SplitOn(s, {c}), c) == s
    decreases |s|
  {
    if |s| > 0 {
      var rest := SplitOn(s[1..], {c});
      SplitJoin(s[1..], c);
      if s[0] == c {
        assert SplitOn(s, {c}) == [""] + rest;
        assert ([""] + rest)[1..] == rest;
      } else {
        assert SplitOn(s, {c}) == [[s[0]] + rest[0]] + rest[1..];
        JoinPrepend([s[0]], rest, c);
      }
      assert s == [s[0]] + s[1..];
    }
  }

  /** Drops the empty strings at the end of `fields`. */
  function DropTrailingEmpty(fields: seq<string>): (r: seq<string>)
    ensures |r| <= |fields| && r == fields[..|r|]
    ensures |r| > 0 ==> r[|r| - 1] != ""
    ensures forall j :: |r| <= j < |fields| ==> fields[j] == ""
  {
    if |fields| == 0 then []
    else if fields[|fields| - 1] == "" then DropTrailingEmpty(fields[..|fields| - 1])
    else fields
  }

  /** `s.split(c)` for a one-character, non-regex separator: the input
      itself when `c` does not occur, otherwise the fields with trailing
      empty strings removed. */
  function JavaSplit(s: string, c: char): seq<string>
  {
    if forall k :: 0 <= k < |s| ==> s[k] != c then [s]
    else DropTrailingEmpty(SplitOn(s, {c}))
  }

  /** A leading non-separator joins the first field. */
  lemma SplitOnCons(x: char, t: string, seps: set<char>)
    requires x !in seps
    ensures SplitOn([x] + t, seps) == [[x] + SplitOn(t, seps)[0]] + SplitOn(t, seps)[1..]
  {
    assert ([x] + t)[1..] == t;
  }

  /** Splitting at the first separator: the part before it is the first
      field, and the rest is split on its own. */
  lemma {:induction false} SplitAfterFirst(a: string, c: char, b: string)
    requires forall k :: 0 <= k < |a| ==> a[k] != c
    ensures SplitOn(a + [c] + b, {c}) == [a] + SplitOn(b, {c})
    decreases |a|
  {
    if |a| == 0 {
      assert a + [c] + b == [c] + b;
      assert ([c] + b)[1..] == b;
    } else {
      var t := a[1..] + [c] + b;
      assert a + [c] + b == [a[0]] + t;
      SplitAfterFirst(a[1..], c, b);
      SplitOnCons(a[0], t, {c});
      assert [a[0]] + a[1..] == a;
    }
  }

  /** `split` keeps a string without the separator whole; otherwise it
      returns the fields of `SplitOn` up to the last non-empty one. */
  lemma JavaSplitFields(s: string, c: char)
    ensures (forall k :: 0 <= k < |s| ==> s[k] != c) ==> JavaSplit(s, c) == [s]
    ensures (exists k :: 0 <= k < |s| && s[k] == c) ==>
      var f, r := SplitOn(s, {c}), JavaSplit(s, c);
      && |r| <= |f| && r == f[..|r|]
      && (forall j :: |r| <= j < |f| ==> f[j] == "")
      && (|r| > 0 ==> r[|r| - 1] != "")
  {
  }

  /** A `name:value` line with a non-empty value and a single separator
      splits into exactly its two halves. */
  lemma JavaSplitPair(name: string, c: char, value: string)
    requires forall k :: 0 <= k < |name| ==> name[k] != c
    requires forall k :: 0 <= k < |value| ==> value[k] != c
    requires value != ""
    ensures JavaSplit(name + [c] + value, c) == [name, value]
  {
    var s := name + [c] + value;
    SplitAfterFirst(name, c, value);
    assert SplitOn(value, {c}) == [value];
    assert s[|name|] == c;
    assert DropTrailingEmpty([name, value]) == [name, value];
  }

  /** Keeps the non-empty strings, in order. */
  function NonEmpty(fields: seq<string>): (r: seq<string>)
    ensures forall i :: 0 <= i < |r| ==> r[i] != "" && r[i] in fields
  {
    if |fields| == 0 then []
    else (if fields[0] == "" then [] else [fields[0]]) + NonEmpty(fields[1..])
  }

  /** The tokens a `StringTokenizer` with delimiter set `delims` returns:
      maximal non-empty runs of non-delimiters. */
  function Tokens(s: string, delims: set<char>): (r: seq<string>)
    ensures forall i, j :: 0 <= i < |r| && 0 <= j < |r[i]| ==> r[i][j] !in delims
    ensures forall i :: 0 <= i < |r| ==> r[i] != ""
  {
    NonEmpty(SplitOn(s, delims))
  }

  /** The default delimiters of `StringTokenizer`. */
  const Whitespace: set<char> := {' ', '\t', '\n', '\r', 12 as char}

  // ----- trimming: String.trim() removes characters up to U+0020 -----

  predicate IsBlank(c: char) {
    c <= ' '
  }

  function TrimStart(s: string): (r: string)
    ensures |r| <= |s| && r == s[|s| - |r|..]
    ensures forall k :: 0 <= k < |s| - |r| ==> IsBlank(s[k])
    ensures |r| > 0 ==> !IsBlank(r[0])
  {
    if |s| > 0 && IsBlank(s[0]) then TrimStart(s[1..]) else s
  }

  function TrimEnd(s: string): (r: string)
    ensures |r| <= |s| && r == s[..|r|]
    ensures forall k :: |r| <= k < |s| ==> IsBlank(s[k])
    ensures |r| > 0 ==> !IsBlank(r[|r| - 1])
  {
    if |s| > 0 && IsBlank(s[|s| - 1]) then TrimEnd(s[..|s| - 1]) else s
  }

  /** `r` is `s[a..b]` and everything cut off around it is blank. */
  predicate SliceWithin(s: string, r: string, a: int, b: int) {
    && 0 <= a <= b <= |s| && r == s[a..b]
    && (forall k :: 0 <= k < a ==> IsBlank(s[k]))
    && (forall k :: b <= k < |s| ==> IsBlank(s[k]))
  }

  /** `String.trim()`: a slice of `s` that neither starts nor ends with a
      blank, with only blanks cut off around it. */
  function Trim(s: string): (r: string)
    ensures exists a, b :: SliceWithin(s, r, a, b)
    ensures |r| > 0 ==> !IsBlank(r[0]) && !IsBlank(r[|r| - 1])
  {
    var t := TrimStart(s);
    var r := TrimEnd(t);
    assert SliceWithin(s, r, |s| - |t|, |s| - |t| + |r|);
    r
  }
}

=== FILE: updates.dfy ===
/** The two update rules: `Util.installLatest`, which compares publish
  dates and installs the first listed release, and the update check in
  `App.haveGameFiles`, which compares the install date of the newest
  installed version with the update (else creation) date of the first
  available entry and also decides which list the window shows.
 */
module Updates {
  import opened Wrappers
  import opened Catalog
  import opened Inventory

  /** `installLatest`: `Some(release)` when `releases[0]` is to be installed,
      `None` when the newest installed version is not older. `releases` is
      the repository's release list in listing order, `installed` the result
      of `getInstalledGames`. The condition evaluates the installed date,
      then `releases.get(0)`, then dereferences both dates. */
  function InstallLatest(releases: seq<Entry>, installed: seq<GameVersion>): (r: Result<Option<Entry>, Exception>)
    requires forall i :: 0 <= i < |releases| ==> releases[i].Release?
    ensures r == Failure(IndexOutOfBounds) <==> |releases| == 0
    ensures r == Failure(NullPointer) <==>
      |releases| > 0 && |installed| > 0 && (installed[0].publishedAt.None? || releases[0].publishedAt.None?)
    ensures r.Failure? ==> r.error == IndexOutOfBounds || r.error == NullPointer
    ensures r.Success? && r.value.Some? ==> r.value.value == releases[0]
    ensures r.Success? && r.value.Some? <==>
      |releases| > 0 &&
      (|installed| == 0 || (NotOlder(releases[0].publishedAt, installed[0].publishedAt)
                            && installed[0].publishedAt != releases[0].publishedAt))
    ensures r == Success(None) <==>
      |releases| > 0 && |installed| > 0 && NotOlder(installed[0].publishedAt, releases[0].publishedAt)
  {
    if |installed| == 0 then
      if |releases| == 0 then Failure(IndexOutOfBounds) else Success(Some(releases[0]))
    else if |releases| == 0 then Failure(IndexOutOfBounds)
    else if installed[0].publishedAt.None? || releases[0].publishedAt.None? then Failure(NullPointer)
    else if installed[0].publishedAt.value < releases[0].publishedAt.value then Success(Some(releases[0]))
    else Success(None)
  }

  /** Once a version published at the same time as the first listed
      release is installed, `installLatest` installs nothing more. */
  lemma InstallLatestSettles(releases: seq<Entry>, listing: seq<Option<GameVersion>>, g: GameVersion)
    requires forall i :: 0 <= i < |releases| ==> releases[i].Release?
    requires |releases| > 0 && releases[0].publishedAt.Some?
    requires ComparableGames(Parsed(listing))
    requires Some(g) in listing && g.publishedAt == releases[0].publishedAt
    ensures InstallLatest(releases, GetInstalledGames(true, listing)) == Success(None)
  {
    var installed := GetInstalledGames(true, listing);
    assert g in installed;
    FirstInstalledIsNewest(true, listing);
    if |installed| >= 2 {
      assert installed[0] in multiset(Parsed(listing));
    } else {
      assert installed[0] == g;
    }
  }

  /** An item of the game list: a remote entry or an installed version. */
  datatype Item = Remote(entry: Entry) | Local(version: GameVersion)

  /** The outcome of the update check. */
  datatype Verdict = UpdateAvailable | AlreadyLatest | NotCompared

  /** What `haveGameFiles` leaves behind: the list shown and the verdict
      it logged. */
  datatype GameList = GameList(items: seq<Item>, verdict: Verdict)

  function Remotes(s: seq<Entry>): (r: seq<Item>)
    ensures |r| == |s|
    ensures forall i :: 0 <= i < |s| ==> r[i] == Remote(s[i])
  {
    if |s| == 0 then [] else [Remote(s[0])] + Remotes(s[1..])
  }

  function Locals(s: seq<GameVersion>): (r: seq<Item>)
    ensures |r| == |s|
    ensures forall i :: 0 <= i < |s| ==> r[i] == Local(s[i])
  {
    if |s| == 0 then [] else [Local(s[0])] + Locals(s[1..])
  }

  /** The date an available entry is compared against: its update date,
      else its creation date. */
  function AvailableDate(e: Entry): Option<Instant> {
    if e.UpdatedAt().Some? then e.UpdatedAt() else e.CreatedAt()
  }

  /** `haveGameFiles`. `connected` says whether a GitHub client exists;
      `online` is the outcome of `getAvailableGames` (an I/O failure is
      logged and treated as an empty list, any other exception escapes);
      `installed` is `getInstalledGames`. A missing date on either side of
      the comparison throws inside the `try` and counts as "already
      latest". */
  function HaveGameFiles(connected: bool, online: Result<seq<Entry>, Exception>, installed: seq<GameVersion>)
    : (r: Result<GameList, Exception>)
    ensures r.Failure? <==> connected && online.Failure? && !online.error.IO?
    ensures r.Failure? ==> r.error == online.error
    ensures r.Success? ==>
      var shown := if online.Success? then online.value else [];
      && (!connected || |shown| == 0 ==> r.value.items == Locals(installed))
      && (connected && |shown| > 0 ==> r.value.items == Remotes(shown))
      && (r.value.verdict == NotCompared <==> !connected || |shown| == 0 || |installed| == 0)
      && (r.value.verdict == UpdateAvailable <==>
            && connected && |shown| > 0 && |installed| > 0
            && NotOlder(AvailableDate(shown[0]), installed[0].installedAt)
            && installed[0].installedAt != AvailableDate(shown[0]))
  {
    if !connected then Success(GameList(Locals(installed), NotCompared))
    else if online.Failure? && !online.error.IO? then Failure(online.error)
    else
      var shown := if online.Success? then online.value else [];
      if |shown| == 0 then Success(GameList(Locals(installed), NotCompared))
      else if |installed| == 0 then Success(GameList(Remotes(shown), NotCompared))
      else
        var installedAt := installed[0].installedAt;
        var available := AvailableDate(shown[0]);
        if installedAt.None? || available.None? then Success(GameList(Remotes(shown), AlreadyLatest))
        else if installedAt.value < available.value then Success(GameList(Remotes(shown), UpdateAvailable))
        else Success(GameList(Remotes(shown), AlreadyLatest))
  }

  /** The two rules differ: a version installed after the newest release
      was published, yet before it was last edited, is current for
      `installLatest` but outdated for the update check. */
  lemma UpdateRulesDiffer()
    ensures
      var release := Release(1, "v1", Some(0), Some(300), Some(100), []);
      var version := GameVersion("u", [], Some(200), "v1", Some(100), "org.kohsuke.github.GHRelease");
      && InstallLatest([release], [version]) == Success(None)
      && HaveGameFiles(true, Success([release]), [version]).value.verdict == UpdateAvailable
  {
  }

  /** A version installed from the newest release is current for
      `installLatest`, yet the update check reports an update exactly when
      that release was edited (or, never edited, created) after the
      install. */
  lemma InstalledFromNewestRelease(releases: seq<Entry>, installed: seq<GameVersion>)
    requires forall i :: 0 <= i < |releases| ==> releases[i].Release?
    requires |releases| > 0 && |installed| > 0
    requires releases[0].publishedAt.Some? && installed[0].publishedAt == releases[0].publishedAt
    requires installed[0].installedAt.Some? && AvailableDate(releases[0]).Some?
    ensures InstallLatest(releases, installed) == Success(None)
    ensures HaveGameFiles(true, Success(releases), installed).value.verdict == UpdateAvailable
      <==> installed[0].installedAt.value < AvailableDate(releases[0]).value
  {
  }

  /** Conversely, a version older than the newest release is replaced by
      `installLatest`, yet the update check calls it the latest whenever it
      was installed no earlier than the release's last edit. */
  lemma OlderVersionInstalledLater(releases: seq<Entry>, installed: seq<GameVersion>)
    requires forall i :: 0 <= i < |releases| ==> releases[i].Release?
    requires |releases| > 0 && |installed| > 0
    requires releases[0].publishedAt.Some? && installed[0].publishedAt.Some?
    requires installed[0].publishedAt.value < releases[0].publishedAt.value
    requires installed[0].installedAt.Some? && AvailableDate(releases[0]).Some?
    requires AvailableDate(releases[0]).value <= installed[0].installedAt.value
    ensures InstallLatest(releases, installed) == Success(Some(releases[0]))
    ensures HaveGameFiles(true, Success(releases), installed).value.verdict == AlreadyLatest
  {
  }
}

=== FILE: wrappers.dfy ===
/** Failure-carrying datatypes shared by the installer model.

  The Java code signals absence with `null` and failure with exceptions;
  the model uses `Option` for the former and `Result` for the latter, with
  `Exception` naming the Java exception class (and message, where the code
  builds one) that the operation would throw.
 */
module Wrappers {

  /** A value that may be missing (a Java reference that may be `null`). */
  datatype Option<+T> = None | Some(value: T) {

    /** Returns the value, or `default` when it is missing. */
    function GetOr(default: T): T {
      match this
      case Some(v) => v
      case None => default
    }
  }

  /** Either the value an operation returns or the exception it throws. */
  datatype Result<+T, +E> = Success(value: T) | Failure(error: E) {

    predicate IsFailure() {
      Failure?
    }
  }

  /** The Java exceptions the modelled code can throw. */
  datatype Exception =
    | NullPointer                      // a `null` reference was dereferenced
    | IndexOutOfBounds                 // `get(0)` on an empty list
    | IO(message: string)              // java.io.IOException
    | Unsupported(message: string)     // UnsupportedOperationException
    | Generic(message: string)         // a plain java.lang.Exception
}
